=== FILE: README.md ===
# Roundcube schema upgrade walker and preference editor, in Dafny

This project models the two decision-making parts of Roundcube's
administrative utility class `rcmail_utils`
(`program/include/rcmail_utils.php`):

- **The schema upgrade walker** (`db_update`, with `db_update_schema` and
  `db_version`). It resolves the component's current schema version, then picks
  the files `<version>.sql` of the dialect directory that are newer and sorts
  them numerically. It applies them in order and records each version from
  2013011000 on in the `system` table. It stops at the first failure.
- **The preference editor** (`mod_pref`). It coerces the new value by a
  case-insensitive type name and sets it on each selected account. It saves an
  account only when its preference array compares unequal to the original
  under PHP's loose `!=`.

Everything is pure functions over immutable data:

- The `system` table is a sequence of `(name, value)` rows, so "never a second
  row for the key" is proved, not assumed. `SystemTable.AsMap` gives the map
  view. `Missing` stands for a table that does not exist yet.
- The filesystem is a `Schema` value. It holds the two directory tests, the
  directory listing and the readable file contents by name.
- Running a script is an opaque function `exec` from script text to
  `ScriptFailed | ScriptApplied(createsSystemTable)`.
- `rcube_utils::get_boolean` is the function parameter `toBool`.

The PHP semantics the code relies on are modelled explicitly:

- `empty()` of a string: `""` and `"0"` are empty.
- `preg_replace('/[^0-9]/', '', …)`.
- `strtolower`.
- The `(int)` / `intval` cast on a leading integer: saturated to 64 bits,
  and 0 when the number is too large for a double. Fractional and exponent
  forms are not read (see Left out).
- PHP 8's loose `==` on booleans, integers and strings.
- `sort(…, SORT_NUMERIC)`, a stable sort as in PHP 8.

Modules: `Wrappers` (Option), `Decimal` (digit strings and their values),
`Doubles` (IEEE 754 rounding of whole numbers), `PhpString`, `PhpValue`,
`SystemTable`, `NumericSort`, `SchemaUpgrade`, `Preferences`.

Points where the code, not a tidier reading of it, is followed:

- A stored version whose digits are `""` or `"0"` counts as no version. A
  stored `"00"` is not PHP-empty, so it gives starting version 0.
- An unknown legacy release string falls through to 2012080700.
- An unreadable or empty upgrade file is not an error, so its version is still
  recorded. A file whose whole content is `"0"` counts as empty too.
- The INSERT happens only when the UPDATE raised no error and matched no row.
- A `$userid` of `"0"` or `""` selects every account, like no `$userid` at
  all. A non-numeric `$userid` selects the account with id 0.
- "Saved iff changed" uses loose equality. Replacing `"1"` by the integer `1`
  therefore reports "nothing changed".

## Model

| member | source | states |
|---|---|---|
| `SystemTable.DbVersion` | program/include/rcmail_utils.php:258-274 | null exactly when no `<package>-version` row exists; otherwise the first such row's value with every non-digit removed, which is all digits |
| `SystemTable.Lookup` | program/include/rcmail_utils.php:262-267 | `fetch_array` yields a row exactly when some row has the name, and the value it yields is that of such a row |
| `PhpString.StripNonDigits` | program/include/rcmail_utils.php:271 | the result is all digits and no longer than the input, and a string of digits is returned unchanged |
| `PhpString.StripConcat` | program/include/rcmail_utils.php:271 | stripping works piecewise over concatenation, so the kept digits stay in their original order |
| `PhpString.StripKeepsDigits` | program/include/rcmail_utils.php:271 | every digit of the input is kept, as many times as it occurs |
| `PhpString.Falsy` | program/include/rcmail_utils.php:120 | the strings PHP's `empty()` and truth tests read as false are exactly `""` and `"0"`. The same test decides `$version` (line 120), `$ver` (line 120), the file contents (line 224), `$userid` (line 368) and the loop condition of line 182 |
| `SystemTable.VersionKey` | program/include/rcmail_utils.php:240 | a component's version is stored under its package name followed by `-version`, the key that the UPDATE and INSERT (lines 240, 245) and `db_version` (line 265) all use |
| `SystemTable.Update` | program/include/rcmail_utils.php:237-240 | the UPDATE rewrites the rows in one pass and keeps their number. `UpdateRows` states what happens to each row |
| `SystemTable.UpdateRows` | program/include/rcmail_utils.php:237-240 | the UPDATE keeps every row's name and position, sets the value of each row named by the key, and leaves every other row as it was |
| `SystemTable.SetVersion` | program/include/rcmail_utils.php:235-248 | on a missing table the write fails and nothing is inserted. Otherwise the key reads the new version afterwards. A new row is added only when no row had the key |
| `SystemTable.SetVersionOthers` | program/include/rcmail_utils.php:237-246 | recording a version leaves every other name with the same value and the same number of rows |
| `SystemTable.SetVersionSingleRow` | program/include/rcmail_utils.php:237-246 | if the key had at most one row before, it has exactly one after |
| `SystemTable.SetVersionIdempotent` | program/include/rcmail_utils.php:237-246 | writing the same version a second time yields the same table |
| `SystemTable.SetVersionAsMap` | program/include/rcmail_utils.php:237-246 | in the map view the write is the single update `m[<package>-version := version]` |
| `SystemTable.SetThenRead` | program/include/rcmail_utils.php:262-273 | a recorded version reads back unchanged through `db_version` |
| `SchemaUpgrade.LegacyBounded` | program/include/rcmail_utils.php:123-161 | every legacy release name is PHP-non-empty and maps to a positive version no newer than 2012080700 |
| `SchemaUpgrade.StartVersion` | program/include/rcmail_utils.php:114-169 | a usable stored version (digits not `""` or `"0"`) is the start. Only a stored version can make the start exceed 2012080700 or be 0 |
| `SchemaUpgrade.StoredEmptyIgnored` | program/include/rcmail_utils.php:120 | a stored `""` or `"0"` gives the same start as no row or no table |
| `SchemaUpgrade.KnownReleaseUsed` | program/include/rcmail_utils.php:120-163 | without a usable stored version, a known release string gives its legacy version |
| `SchemaUpgrade.UnknownReleaseFallsBack` | program/include/rcmail_utils.php:163-169 | without a usable stored version, an absent or unknown release gives 2012080700 |
| `SchemaUpgrade.UpgradeNumber` | program/include/rcmail_utils.php:183 | a recognised name is exactly non-empty digits followed by `.sql`, and the digits are returned (corrected pattern, see Findings) |
| `SchemaUpgrade.UpgradeNumberOf` | program/include/rcmail_utils.php:183 | every name of the form digits + `.sql` is recognised, with those digits |
| `SchemaUpgrade.UpgradeNumberAsWritten` | program/include/rcmail_utils.php:183 | the pattern as PCRE runs it accepts every name the anchored pattern accepts, with the same digits |
| `SchemaUpgrade.TrailingNewlineAccepted` | program/include/rcmail_utils.php:183 | the pattern as written accepts `"12.sql\n"` and yields version 12, though the name is not `12.sql` |
| `SchemaUpgrade.Pending` | program/include/rcmail_utils.php:183 | a version is pending exactly when it is non-empty digits, `<version>.sql` is in the listing, and its value exceeds the start version (`$m[1] > $version`) |
| `SchemaUpgrade.Select` | program/include/rcmail_utils.php:181-186 | over the whole listing, selected versions are exactly the upgrade names newer than the start: each one is pending, and every pending one is selected. A duplicate-free listing gives a duplicate-free selection |
| `SchemaUpgrade.ScannedAsWritten` | program/include/rcmail_utils.php:182 | the loop as written visits a prefix of the listing that holds no entry read as false, and it stops early only at an entry read as false |
| `SchemaUpgrade.ScannedAsWrittenWhole` | program/include/rcmail_utils.php:182 | the loop as written visits the whole listing exactly when no entry is `""` or `"0"` |
| `NumericSort.Sort` | program/include/rcmail_utils.php:187 | the result is a permutation of the input in non-decreasing numeric order |
| `NumericSort.SortStrict` | program/include/rcmail_utils.php:187 | distinct canonical numerals come out strictly ascending |
| `NumericSort.SortPair` | program/include/rcmail_utils.php:187 | two numerals out of numeric order are swapped, whatever their spelling |
| `NumericSort.NineBeforeTen` | program/include/rcmail_utils.php:187 | the order is numeric, not lexical: `["10", "9"]` sorts to `["9", "10"]` |
| `SchemaUpgrade.Queue` | program/include/rcmail_utils.php:181-187 | the queue holds exactly the pending versions, in ascending numeric order |
| `SchemaUpgrade.QueueStrictlyAscending` | program/include/rcmail_utils.php:181-187 | with distinct, leading-zero-free file names the queue is strictly ascending |
| `SchemaUpgrade.ReadScript` | program/include/rcmail_utils.php:224 | `file_get_contents` yields the file's text when `<version>.sql` is readable, and nothing (PHP's `false`) otherwise |
| `SchemaUpgrade.Runs` | program/include/rcmail_utils.php:224 | the script is run exactly when the read succeeded and its text is not PHP-empty, i.e. neither `""` nor `"0"` |
| `SchemaUpgrade.ScriptFails` | program/include/rcmail_utils.php:224-226 | a script error is returned exactly when the script is run and `exec_script` reports failure |
| `SchemaUpgrade.RecordsItself` | program/include/rcmail_utils.php:231 | a version is recorded in the `system` table exactly when it is at or past 2013011000; earlier versions return before the table is touched |
| `SchemaUpgrade.UpdateSchema` | program/include/rcmail_utils.php:219-249 | a script error happens exactly when the file was read non-empty and its script failed. A record error needs a version at or past 2013011000 and a missing table. On an existing table the step fails only by a script error and leaves the table existing |
| `SchemaUpgrade.UpdateSchemaTable` | program/include/rcmail_utils.php:230-246 | after an applied step, no row changes below 2013011000. At or past it the key reads the version, in one row unless there were several. No other name changes |
| `SchemaUpgrade.UnreadableFileRecorded` | program/include/rcmail_utils.php:224-246 | an unreadable or empty file at or past 2013011000 on an existing table is applied, and its version is recorded |
| `SchemaUpgrade.Walk` | program/include/rcmail_utils.php:189-211 | the walk goes through at most the whole queue, and through all of it when nothing stops it |
| `SchemaUpgrade.WalkShape` | program/include/rcmail_utils.php:189-213 | processed files are a prefix of the queue. Success means all were processed. A stop means at least one was processed |
| `SchemaUpgrade.WalkStopNamesFile` | program/include/rcmail_utils.php:200-210 | a stop names the last processed file, so no later file is attempted |
| `SchemaUpgrade.WalkKeepsOtherRows` | program/include/rcmail_utils.php:189-211 | the walk never changes a row of another name |
| `SchemaUpgrade.WalkRecordsLast` | program/include/rcmail_utils.php:189-211 | afterwards the key holds the last version at or past 2013011000 among the files that went through, or its earlier value when there is none |
| `SchemaUpgrade.WalkOnPresentTable` | program/include/rcmail_utils.php:189-213 | on an existing table the walk succeeds iff no script in the queue fails |
| `SchemaUpgrade.WalkStopsAtFirstFailure` | program/include/rcmail_utils.php:189-211 | on an existing table a stop is a script error of the first failing script, and every earlier script succeeded |
| `SchemaUpgrade.WalkStopsEarly` | program/include/rcmail_utils.php:189-211 | a walk that stops within `a` gives the same result on `a + b`: nothing after the failure is attempted |
| `SchemaUpgrade.WalkComposes` | program/include/rcmail_utils.php:189-211 | when nothing in `a` fails, walking `a + b` is walking `a`, then walking `b` from the table `a` left |
| `SchemaUpgrade.RunQueue` | program/include/rcmail_utils.php:189-213 | the processed files are the head of the queue, all of it on success, and a stop is fatal exactly in errors mode |
| `SchemaUpgrade.RunQueueOrder` | program/include/rcmail_utils.php:181-213 | only pending versions are applied, in ascending order, and on success every pending version is applied |
| `SchemaUpgrade.RunQueueTable` | program/include/rcmail_utils.php:189-213 | the run changes no row of another name, and on success the key holds the last recorded version |
| `SchemaUpgrade.RunQueueOnPresentTable` | program/include/rcmail_utils.php:189-213 | on an existing table the run over the queue succeeds iff no pending script fails |
| `SchemaUpgrade.DbUpdate` | program/include/rcmail_utils.php:102-214 | a missing schema or dialect directory returns false before any file, with the table untouched. Otherwise only versions newer than the resolved start are applied, in ascending order. Success applies every one of them and leaves the key at the last recorded version. No other name changes |
| `SchemaUpgrade.DbUpdateStrictlyAscending` | program/include/rcmail_utils.php:181-211 | with distinct, leading-zero-free file names, versions are applied in strictly ascending order, so none is applied twice |
| `SchemaUpgrade.DbUpdateOnPresentTable` | program/include/rcmail_utils.php:189-213 | with both directories and the table present, the result is true iff no pending script fails, including when nothing is pending |
| `SchemaUpgrade.DbUpdateAsWritten` | program/include/rcmail_utils.php:182-213 | with the directory loop as written, every applied version comes from the entries before the first `"0"`, and the result equals `DbUpdate` whenever no entry is `""` or `"0"` |
| `SchemaUpgrade.ZeroEntryEndsScan` | program/include/rcmail_utils.php:182-213 | a listing `["0", "2.sql"]` with a failing `2.sql`, at release 0.1-stable on an existing table: as written `db_update` returns true, while the whole-listing walker stops at `2.sql` |
| `PhpString.IntCast` | program/include/rcmail_utils.php:381 | the cast stays within the 64-bit range and gives 0 when no leading digits follow the optional spaces and sign |
| `PhpString.IntCastPastDoubles` | program/include/rcmail_utils.php:381 | a digit string of value 2^1024 or more casts to 0: it is read as an infinite double, and an infinite double converts to 0 |
| `PhpString.IntCastOfParts` | program/include/rcmail_utils.php:381 | for white space, an optional sign, digits and a rest that neither goes on with a digit nor starts a fraction or an exponent, the cast is the signed value of the digits saturated to 64 bits, or 0 when the digits round to an infinite double: `(int) "  -12abc"` is -12 and a 20-digit number gives `PHP_INT_MAX` |
| `PhpString.CastOfIntToString` | program/include/rcmail_utils.php:381 | the cast reads back any 64-bit integer written in decimal, and that rendering is a numeric string of the same value |
| `PhpValue.LooseReflexive` | program/include/rcmail_utils.php:395 | every value is loosely equal to itself |
| `PhpValue.LooseSymmetric` | program/include/rcmail_utils.php:395 | loose equality does not depend on operand order |
| `PhpValue.LooseEquals` | program/include/rcmail_utils.php:395-396 | PHP 8 `==` on booleans, integers and strings. A boolean side compares truth values. Two numeric strings compare as integers when both fit in 64 bits, are unequal when only one overflows, and are equal when both overflow only if they are the same string. An integer and a numeric string compare exactly when the string fits in 64 bits and as doubles otherwise. Anything else compares as strings |
| `Doubles.CutAt53` | program/include/rcmail_utils.php:395 | a number splits into a significand below 2^53 times a spacing plus a remainder below the spacing; the spacing is a power of two, and the significand uses all 53 bits once the spacing exceeds 1 |
| `Doubles.RoundNat` | program/include/rcmail_utils.php:395 | rounding to a double keeps the spacing, uses a significand of at most 2^53, and lands within half a spacing of the number |
| `Doubles.FiniteBelow` | program/include/rcmail_utils.php:381 | a whole number below 2^1023 rounds to a finite double |
| `Doubles.InfiniteFrom` | program/include/rcmail_utils.php:381 | a whole number of 2^1024 or more rounds to 2^1024 or more, so its double is infinite |
| `PhpValue.RoundNearTwoTo63` | program/include/rcmail_utils.php:395 | `PHP_INT_MAX` and 2^63 both round to the double 2^63 |
| `PhpValue.IntMaxEqualsTwoTo63String` | program/include/rcmail_utils.php:395 | `PHP_INT_MAX` is loosely equal to the string `"9223372036854775808"`, which overflows to the same double |
| `PhpValue.IntEqualsOverflowing` | program/include/rcmail_utils.php:395 | an integer and a numeric string beyond 64 bits are loosely equal whenever their doubles agree |
| `PhpValue.OverflowSpellingsDiffer` | program/include/rcmail_utils.php:395 | two spellings of a number beyond 64 bits, with and without a leading zero, are not loosely equal |
| `PhpValue.NumeralEqualsInt` | program/include/rcmail_utils.php:395 | the string `"1"` and the integer `1` compare equal |
| `PhpValue.LeadingZeroSpellingsEqual` | program/include/rcmail_utils.php:395 | a 64-bit number spelled with and without a leading zero compares equal |
| `PhpValue.IntEqualsItsString` | program/include/rcmail_utils.php:395 | an integer compares equal to its decimal rendering |
| `PhpString.ToLower` | program/include/rcmail_utils.php:375 | `strtolower` keeps the length, turns every ASCII capital into its lower-case letter (code plus 32) and keeps every other character |
| `Preferences.Coerce` | program/include/rcmail_utils.php:375-382 | the result is boolean iff the lower-cased type is `bool`/`boolean`, and integer iff it is `int`/`integer`. The boolean is `get_boolean` of the value, the integer its `(int)` cast, otherwise the string unchanged |
| `Preferences.CoerceIgnoresCase` | program/include/rcmail_utils.php:375 | coercion depends on the type name only up to letter case |
| `Preferences.CoerceCaseInsensitive` | program/include/rcmail_utils.php:375-382 | two type names that match character by character up to ASCII letter case give the same coercion |
| `Preferences.BoolTypeInAnyCase` | program/include/rcmail_utils.php:375-378 | `bool` or `boolean` in any letter case (`BOOL`, `Boolean`, …) gives the boolean `get_boolean` of the value |
| `Preferences.IntTypeInAnyCase` | program/include/rcmail_utils.php:375-381 | `int` or `integer` in any letter case (`INT`, `Integer`, …) gives the `(int)` cast of the value |
| `Preferences.CoerceIntRoundTrip` | program/include/rcmail_utils.php:380-381 | an integer written in decimal and coerced as `int` comes back unchanged |
| `Preferences.LooseMapEquals` | program/include/rcmail_utils.php:395 | two preference arrays are `==` when they have the same keys and loosely equal values under each key |
| `Preferences.Selected` | program/include/rcmail_utils.php:368-373 | a `$userid` that is given and not PHP-empty selects only the account whose id is `intval($userid)`; otherwise every account is selected |
| `Preferences.SetKeyDiffers` | program/include/rcmail_utils.php:393-395 | after setting one key, the whole array differs under `!=` iff the key was absent or its old value is not loosely equal to the new one |
| `Preferences.EditUser` | program/include/rcmail_utils.php:391-401 | the account is saved iff the key was absent or loosely unequal. What is saved is the old array with just that key set |
| `Preferences.Visit` | program/include/rcmail_utils.php:368-401 | an unselected account is skipped and unchanged. A selected account ends up holding a value loosely equal to the new one, and is saved with `prefs[name := v]` or left as it was |
| `Preferences.ModPref` | program/include/rcmail_utils.php:364-403 | every account in the table gets exactly the outcome of its own visit, in table order, and keeps its id |
| `Preferences.ModPrefIdempotent` | program/include/rcmail_utils.php:391-401 | running the same edit a second time saves nothing and changes no account |

## Left out

- `db()` and the connection it memoises (lines 36-55): global state and I/O. The model passes the state explicitly.
- `db_init` (lines 62-90): it reads one file and runs it, with nothing to state beyond "error if missing or empty".
- `db_clean` (lines 281-300): a wall-clock threshold and a raw SQL DELETE.
- `get_host` (lines 305-329): it depends on configuration and PHP's `parse_url`.
- `indexcontacts` (lines 334-354): all of its work is done by `rcube_contacts`, which is not part of this model.
- The `echo` progress lines and the `quiet` option. They only affect output.
- The `ignore_errors` toggling around each file. Only its effect is modelled: one error per file.
- The text of `raise_error` messages. In `errors` mode the model only marks a failure as fatal (`Stopped(_, true)`).
- `exec_script` is opaque. The model assumes a script never changes `system` rows and can at most create the table. It also assumes a failed script always leaves an error set, so the walker treats the file as failed.
- `affected_rows()` is modelled as the number of matched rows. Roundcube's MySQL driver sets this through its found-rows option, which is not visible here. With changed-rows semantics, re-writing an unchanged version would take the INSERT path.
- `rcube_user::save_prefs` is modelled as storing the new array as given.
- `rcube_utils::get_boolean` is an opaque parameter.
- `SchemaUpgrade.StartVersion`: stored versions and file numbers are compared as unbounded naturals. PHP agrees with that for the comparison `$m[1] > $version` of line 183, except when both numbers exceed 64 bits on the same side and round to the same double: PHP then compares the two digit strings byte by byte.
- `NumericSort.Sort`: orders by exact value. `SORT_NUMERIC` at line 187 compares both sides as doubles, so the order is exact only for numbers up to 2^53. Above that, distinct numbers can compare equal and then keep their listing order.
- `NumericSort.SortStrict`: the strict order holds only for numbers up to 2^53, for the same reason as `Sort`.
- `NumericSort.SortPair`: PHP swaps the two only when their doubles differ, so the result is exact only for numbers up to 2^53.
- `SchemaUpgrade.Queue`: its order is exact only for numbers up to 2^53, as for `Sort`. It holds the pending versions of the whole listing, not only of the entries before a file named `0` (see Findings).
- `SchemaUpgrade.QueueStrictlyAscending`: the strict order holds only for numbers up to 2^53, as for `Sort`.
- `SchemaUpgrade.Select`: scans the whole listing. The loop of line 182 as written ends at an entry named `0`; that behaviour is `ScannedAsWritten` (see Findings). Its "newer than the start" is `Pending`, exact up to the caveat of `StartVersion`: two numbers past 64 bits on the same side with equal doubles are compared by PHP byte by byte.
- `SchemaUpgrade.Pending`: compares as unbounded naturals, with the same caveat as `StartVersion` for two numbers past 64 bits with equal doubles.
- `SchemaUpgrade.RunQueueOrder`: its order is exact only for numbers up to 2^53, as for `Sort`. "Every pending version is applied" is over the whole listing (see Findings).
- `SchemaUpgrade.RunQueueOnPresentTable`: "no pending script fails" is over the whole listing. As written, a failing script listed after a file named `0` is never reached (see Findings).
- `SchemaUpgrade.DbUpdate`: the walker over the whole listing, as the loop of line 182 evidently intends; the code as written is `DbUpdateAsWritten` (see Findings). Its ascending order is exact only for numbers up to 2^53, as for `Sort`.
- `SchemaUpgrade.DbUpdateStrictlyAscending`: the strict order holds only for numbers up to 2^53, as for `Sort`.
- `SchemaUpgrade.DbUpdateOnPresentTable`: "no pending script fails" is over the whole listing (see Findings).
- `PhpValue.LooseEquals`: only integer-shaped numeric strings count as numeric; their 64-bit overflow rules are modelled. PHP 8 also compares float-shaped strings (`"1.0"`, `"1e3"`) numerically. Preference values other than booleans, integers and strings (arrays, null, floats) are not modelled.
- `PhpString.IntCast`: reads only the leading integer. PHP reads a leading number with a fraction or an exponent as a double and truncates it, so `(int)"1e3"` is 1000 in PHP but 1 here. A fraction with 17 or more significant digits can round up: `(int)"12.99999999999999999"` is 13 in PHP but 12 here, and `(int)".9999999999999999999"` is 1 in PHP, although the contract promises 0 when no digit leads. A leading integer too large for a double does give 0, as in PHP.
- `PhpString.IntCastOfParts`: excludes a rest that starts a fraction or an exponent (`StartsDoublePart`), since PHP reads such input through a double, which the model does not parse.
- `Preferences.Selected`: `intval($userid)` is `PhpString.IntCast`, with its gap for fractional and exponent forms.
- `Preferences.Coerce`: the `int` coercion is `PhpString.IntCast`, with its gap for fractional and exponent forms.
- `Preferences.IntTypeInAnyCase`: the cast it names is `PhpString.IntCast`, with its gap for fractional and exponent forms.
- `PhpString.ToLower` folds ASCII letters only, as PHP 8's `strtolower` does. PHP 7 semantics for comparisons and lower-casing are not modelled.
- Concurrency: two walkers racing on the same table are out of scope. The model is one sequential run.

## Findings

| source | as written | input that shows it | evidently intended | confidence | as-written member | corrected member |
|---|---|---|---|---|---|---|
| program/include/rcmail_utils.php:183 | `/^([0-9]+)\.sql$/` has no `D` modifier, so `$` also matches just before a final newline | a directory entry named `"12.sql\n"` selects version 12, and the walker then reads and applies the different file `12.sql` | only names that are exactly digits followed by `.sql` are upgrade files | not executed; low impact (such names are rare) | `SchemaUpgrade.TrailingNewlineAccepted` | `SchemaUpgrade.UpgradeNumber` |
| program/include/rcmail_utils.php:182 | `while ($file = readdir($dh))` tests each entry for truth, and the entry name `"0"` is false in PHP | a dialect directory listing `0` before `2.sql`: the loop ends at `0`, `2.sql` is never selected, and `db_update` returns true without applying it | every entry is examined, i.e. the loop stops only when `readdir` returns `false` | not executed; low impact (a file named `0` is unlikely in a schema directory) | `SchemaUpgrade.ZeroEntryEndsScan` | `SchemaUpgrade.DbUpdate` |

The walker uses the corrected matcher `SchemaUpgrade.UpgradeNumber` and examines the whole listing; `SchemaUpgrade.DbUpdateAsWritten` is the walker with the loop as written.

=== FILE: decimal.dfy ===
/**
 * Strings of ASCII decimal digits, the number they denote, and the shortest
 * rendering of a number. Upgrade file names, stored schema versions and the
 * integer casts of the preference editor are all read through these.
 */
module Decimal {

  predicate IsDigit(c: char) {
    '0' <= c <= '9'
  }

  predicate IsDigits(s: string) {
    forall i :: 0 <= i < |s| ==> IsDigit(s[i])
  }

  function DigitValue(c: char): (d: nat)
    requires IsDigit(c)
    ensures d < 10
  {
    c as int - '0' as int
  }

  function DigitChar(d: nat): (c: char)
    requires d < 10
    ensures IsDigit(c) && DigitValue(c) == d
  {
    ('0' as int + d) as char
  }

  /** The number a digit string denotes, most significant digit first; "" denotes 0. */
  function Value(s: string): nat
    requires IsDigits(s)
  {
    if |s| == 0 then 0 else 10 * Value(s[..|s| - 1]) + DigitValue(s[|s| - 1])
  }

  /** A non-empty digit string without redundant leading zeros. */
  predicate Canonical(s: string) {
    |s| > 0 && IsDigits(s) && (|s| == 1 || s[0] != '0')
  }

  /** The shortest decimal rendering of `n`. */
  function Render(n: nat): (s: string)
    ensures Canonical(s)
    ensures n > 0 ==> s[0] != '0'
  {
    if n < 10 then [DigitChar(n)] else Render(n / 10) + [DigitChar(n % 10)]
  }

  lemma ValueAppend(s: string, c: char)
    requires IsDigits(s) && IsDigit(c)
    ensures IsDigits(s + [c])
    ensures Value(s + [c]) == 10 * Value(s) + DigitValue(c)
  {
    assert (s + [c])[..|s|] == s;
  }

  /** Reading back a rendering gives the number rendered. */
  lemma {:induction false} ValueOfRender(n: nat)
    ensures Value(Render(n)) == n
  {
    if n >= 10 {
      ValueOfRender(n / 10);
      ValueAppend(Render(n / 10), DigitChar(n % 10));
    }
  }

  /** A digit string of value 0 is made of zeros only. */
  lemma {:induction false} ZeroValueIsZeros(s: string)
    requires IsDigits(s) && Value(s) == 0
    ensures forall i :: 0 <= i < |s| ==> s[i] == '0'
  {
    if |s| > 0 {
      ZeroValueIsZeros(s[..|s| - 1]);
      forall i | 0 <= i < |s|
        ensures s[i] == '0'
      {
        if i < |s| - 1 {
          assert s[i] == s[..|s| - 1][i];
        }
      }
    }
  }

  /** Rendering the value of a canonical string gives the string back. */
  lemma {:induction false} RenderOfValue(s: string)
    requires Canonical(s)
    ensures Render(Value(s)) == s
  {
    var p, c := s[..|s| - 1], s[|s| - 1];
    assert s == p + [c];
    if |p| > 0 {
      assert p[0] == s[0];
      assert Canonical(p);
      if Value(p) == 0 {
        ZeroValueIsZeros(p);
        assert false;
      }
      RenderOfValue(p);
      assert Value(s) / 10 == Value(p) && Value(s) % 10 == DigitValue(c);
    }
  }

  /** Two canonical strings with the same value are the same string. */
  lemma ValueInjective(a: string, b: string)
    requires Canonical(a) && Canonical(b)
    ensures Value(a) == Value(b) <==> a == b
  {
    if Value(a) == Value(b) {
      RenderOfValue(a);
      RenderOfValue(b);
    }
  }
}

=== FILE: doubles.dfy ===
/**
 * Non-negative IEEE 754 doubles on whole numbers, without floating point:
 * a number is cut at its 53rd significant bit and rounded to nearest, ties
 * to even. PHP meets doubles here when a numeric string overflows 64 bits.
 */
module Doubles {
  const TwoTo53: nat := 0x20_0000_0000_0000

  /** 2^1024, the first power of two past the largest finite double. */
  const TwoTo1024: nat := 0x1_0000_0000_0000_0000_0000_0000_0000_0000_0000_0000_0000_0000_0000_0000_0000_0000_0000_0000_0000_0000_0000_0000_0000_0000_0000_0000_0000_0000_0000_0000_0000_0000_0000_0000_0000_0000_0000_0000_0000_0000_0000_0000_0000_0000_0000_0000_0000_0000_0000_0000_0000_0000_0000_0000_0000_0000_0000_0000_0000_0000_0000_0000_0000_0000

  function Pow2(e: nat): (p: nat)
    ensures p >= 1
  {
    if e == 0 then 1 else 2 * Pow2(e - 1)
  }

  ghost predicate IsPowerOfTwo(p: nat) {
    exists e: nat :: Pow2(e) == p
  }

  /** A natural number split at its 53rd significant bit: `significand` keeps
      the leading (at most) 53 bits, `rest` what is cut off below them, and
      `spacing` is the distance between neighbouring doubles there. */
  datatype Cut = Cut(significand: nat, rest: nat, spacing: nat)

  function CutAt53(n: nat): (c: Cut)
    ensures IsPowerOfTwo(c.spacing) && c.rest < c.spacing && c.significand < TwoTo53
    ensures n == c.significand * c.spacing + c.rest
    ensures c.spacing == 1 || TwoTo53 <= 2 * c.significand
  {
    if n < TwoTo53 then Cut(n, 0, 1)
    else
      var h := CutAt53(n / 2);
      assert h.significand * (2 * h.spacing) == 2 * (h.significand * h.spacing);
      assert IsPowerOfTwo(2 * h.spacing) by {
        var e: nat :| Pow2(e) == h.spacing;
        assert Pow2(e + 1) == 2 * h.spacing;
      }
      Cut(h.significand, 2 * h.rest + n % 2, 2 * h.spacing)
  }

  /** A non-negative double: a significand of at most 53 bits times its spacing. */
  datatype Double = Double(significand: nat, spacing: nat) {
    function Value(): nat { significand * spacing }
  }

  /** The double nearest to `n`, ties going to the even significand: IEEE 754
      round-to-nearest. */
  function RoundNat(n: nat): (d: Double)
    ensures d.spacing == CutAt53(n).spacing && d.significand <= TwoTo53
    ensures 2 * (if d.Value() >= n then d.Value() - n else n - d.Value()) <= d.spacing
  {
    var c := CutAt53(n);
    if 2 * c.rest > c.spacing || (2 * c.rest == c.spacing && c.significand % 2 == 1) then
      assert (c.significand + 1) * c.spacing == c.significand * c.spacing + c.spacing;
      Double(c.significand + 1, c.spacing)
    else Double(c.significand, c.spacing)
  }

  /** `strtod` of the digits of `n` overflows: the nearest double, with the
      exponent unbounded, is 2^1024 or more, so the result is infinity. */
  predicate Infinite(n: nat) {
    RoundNat(n).Value() >= TwoTo1024
  }

  /** A whole number below 2^1023 is a finite double. */
  lemma FiniteBelow(n: nat)
    requires 2 * n < TwoTo1024
    ensures !Infinite(n)
  {
    var c := CutAt53(n);
    assert c.spacing <= n || n == 0 by {
      if c.spacing > 1 {
        assert (c.significand - 1) * c.spacing >= 0;
      }
    }
  }

  lemma MulMonotone(a: nat, b: nat, p: nat)
    requires a <= b
    ensures a * p <= b * p
  {
    assert b * p == a * p + (b - a) * p;
  }

  lemma MulCancel(a: nat, b: nat, p: nat)
    requires a * p < b * p
    ensures a < b
  {
    if b <= a {
      MulMonotone(b, a, p);
    }
  }

  lemma {:induction false} Pow2Add(a: nat, b: nat)
    ensures Pow2(a + b) == Pow2(a) * Pow2(b)
    decreases a
  {
    if a > 0 {
      Pow2Add(a - 1, b);
      assert Pow2(a + b) == 2 * Pow2(a - 1 + b);
    }
  }

  lemma Square(a: nat, v: nat)
    requires Pow2(a) == v
    ensures Pow2(2 * a) == v * v
  {
    Pow2Add(a, a);
  }

  /** 2^1024 by ten squarings of 2; `e` stands for 1024 so that the solver
      does not unfold `Pow2` a thousand times. */
  lemma TwoTo1024IsPower(e: nat)
    requires e == 1024
    ensures Pow2(e) == TwoTo1024
  {
    var k := e / 1024;
    assert Pow2(k) == 2;
    Square(k, 2);
    Square(2 * k, 4);
    Square(4 * k, 16);
    Square(8 * k, 0x100);
    Square(16 * k, 0x1_0000);
    Square(32 * k, 0x1_0000_0000);
    Square(64 * k, 0x1_0000_0000_0000_0000);
    Square(128 * k, 0x1_0000_0000_0000_0000 * 0x1_0000_0000_0000_0000);
    var p128 := Pow2(128 * k);
    Square(256 * k, p128 * p128);
    var p256 := Pow2(256 * k);
    Square(512 * k, p256 * p256);
  }

  /** Powers of two grow with the exponent. */
  lemma {:induction false} Pow2Log(a: nat, b: nat)
    requires Pow2(a) <= Pow2(b)
    ensures a <= b
    decreases a
  {
    if a > 0 && b > 0 {
      Pow2Log(a - 1, b - 1);
    }
  }

  /** A power of two no larger than 2^1024 divides it. */
  lemma PowerDivides(p: nat) returns (k: nat)
    requires IsPowerOfTwo(p) && p <= TwoTo1024
    ensures TwoTo1024 == k * p
  {
    var e: nat :| Pow2(e) == p;
    var top: nat := 1024;
    TwoTo1024IsPower(top);
    Pow2Log(e, top);
    Pow2Add(top - e, e);
    k := Pow2(top - e);
  }

  /** Rounding never goes below the cut-off significand. */
  lemma RoundsAtLeast(n: nat)
    ensures RoundNat(n).Value() >= CutAt53(n).significand * CutAt53(n).spacing
  {
  }

  lemma NextMultiple(a: nat, p: nat)
    ensures (a + 1) * p == a * p + p
  {
  }

  /** `n` lies below the next double after its cut-off significand. */
  lemma NextAbove(n: nat)
    ensures n < (CutAt53(n).significand + 1) * CutAt53(n).spacing
  {
    var c := CutAt53(n);
    NextMultiple(c.significand, c.spacing);
  }

  /** A whole number of 2^1024 or more rounds to 2^1024 or more: its double
      is infinite. */
  lemma InfiniteFrom(n: nat)
    requires n >= TwoTo1024
    ensures Infinite(n)
  {
    var c := CutAt53(n);
    var s, p := c.significand, c.spacing;
    RoundsAtLeast(n);
    NextAbove(n);
    if p <= TwoTo1024 {
      var k := PowerDivides(p);
      MulCancel(k, s + 1, p);
      MulMonotone(k, s, p);
    } else {
      MulMonotone(1, s, p);
    }
  }

  /** An integer converted to a double, as a C `(double)` cast or `strtod` of
      its digits gives it. Past the largest double PHP gets infinity instead;
      no comparison in this model can tell the two apart, since an infinite
      side is never equal to a 64-bit integer's double and two overflowing
      strings end up compared byte by byte either way. */
  function ToDouble(n: int): int {
    if n < 0 then 0 - RoundNat(-n).Value() else RoundNat(n).Value()
  }
}

=== FILE: numeric_sort.dfy ===
/**
 * `sort($result, SORT_NUMERIC)` on the version strings taken from upgrade
 * file names: an insertion sort by numeric value. Equal values keep their
 * input order, as PHP 8's stable sort does.
 */
module NumericSort {
  import opened Decimal

  predicate AllNumerals(s: seq<string>) {
    forall i :: 0 <= i < |s| ==> IsDigits(s[i])
  }

  /** Non-decreasing by numeric value. */
  predicate Ascending(s: seq<string>)
    requires AllNumerals(s)
  {
    forall i, j :: 0 <= i < j < |s| ==> Value(s[i]) <= Value(s[j])
  }

  /** Strictly increasing by numeric value. */
  predicate StrictlyAscending(s: seq<string>)
    requires AllNumerals(s)
  {
    forall i, j :: 0 <= i < j < |s| ==> Value(s[i]) < Value(s[j])
  }

  /** No string occurs twice. */
  predicate Distinct(s: seq<string>) {
    forall i, j :: 0 <= i < j < |s| ==> s[i] != s[j]
  }

  /** A prefix of an ascending sequence is ascending. */
  lemma AscendingPrefix(s: seq<string>, n: nat)
    requires AllNumerals(s) && Ascending(s) && n <= |s|
    ensures AllNumerals(s[..n]) && Ascending(s[..n])
  {
    assert forall i :: 0 <= i < n ==> s[..n][i] == s[i];
  }

  /** A lower bound on every element carries over to any rearrangement. */
  lemma LowerBoundPermuted(t: seq<string>, r: seq<string>, lo: nat)
    requires AllNumerals(t) && multiset(r) == multiset(t)
    requires forall i :: 0 <= i < |t| ==> lo <= Value(t[i])
    ensures AllNumerals(r)
    ensures forall k :: 0 <= k < |r| ==> lo <= Value(r[k])
  {
    forall k | 0 <= k < |r|
      ensures IsDigits(r[k]) && lo <= Value(r[k])
    {
      assert r[k] in multiset(t);
      var m :| 0 <= m < |t| && t[m] == r[k];
    }
  }

  /** Putting a lower bound of an ascending sequence in front keeps it ascending. */
  lemma AscendingCons(h: string, s: seq<string>)
    requires IsDigits(h) && AllNumerals(s) && Ascending(s)
    requires forall k :: 0 <= k < |s| ==> Value(h) <= Value(s[k])
    ensures AllNumerals([h] + s) && Ascending([h] + s)
  {
    var r := [h] + s;
    forall i, j | 0 <= i < j < |r|
      ensures Value(r[i]) <= Value(r[j])
    {
      assert r[j] == s[j - 1];
      if i > 0 { assert r[i] == s[i - 1]; }
    }
  }

  /** Places `x` after every element of `s` whose value is not greater. */
  function Insert(x: string, s: seq<string>): (r: seq<string>)
    requires IsDigits(x) && AllNumerals(s)
    ensures AllNumerals(r)
    ensures multiset(r) == multiset(s) + multiset{x}
  {
    if |s| == 0 then [x]
    else if Value(x) < Value(s[0]) then [x] + s
    else
      assert s == [s[0]] + s[1..];
      [s[0]] + Insert(x, s[1..])
  }

  /** Inserting into an ascending sequence keeps it ascending. */
  lemma {:induction false} InsertAscending(x: string, s: seq<string>)
    requires IsDigits(x) && AllNumerals(s) && Ascending(s)
    ensures Ascending(Insert(x, s))
  {
    if |s| == 0 {
    } else if Value(x) < Value(s[0]) {
      AscendingCons(x, s);
    } else {
      assert AllNumerals(s[1..]) && Ascending(s[1..]) by {
        forall i, j | 0 <= i < j < |s| - 1
          ensures Value(s[1..][i]) <= Value(s[1..][j])
        {
          assert s[1..][i] == s[i + 1] && s[1..][j] == s[j + 1];
        }
      }
      var rest := Insert(x, s[1..]);
      InsertAscending(x, s[1..]);
      var t := s[1..] + [x];
      assert forall i :: 0 <= i < |t| ==> IsDigits(t[i]) && Value(s[0]) <= Value(t[i]) by {
        forall i | 0 <= i < |t|
          ensures IsDigits(t[i]) && Value(s[0]) <= Value(t[i])
        {
          if i < |s| - 1 { assert t[i] == s[i + 1]; }
        }
      }
      LowerBoundPermuted(t, rest, Value(s[0]));
      AscendingCons(s[0], rest);
    }
  }

  /** Numeric ascending order of `s`, a permutation of it. */
  function Sort(s: seq<string>): (r: seq<string>)
    requires AllNumerals(s)
    ensures AllNumerals(r) && Ascending(r)
    ensures multiset(r) == multiset(s)
  {
    if |s| == 0 then []
    else
      assert s == s[..|s| - 1] + [s[|s| - 1]];
      var sorted := Sort(s[..|s| - 1]);
      InsertAscending(s[|s| - 1], sorted);
      Insert(s[|s| - 1], sorted)
  }

  /** In a sequence without repeats, nothing occurs more than once. */
  lemma {:induction false} DistinctAtMostOnce(s: seq<string>, x: string)
    requires Distinct(s)
    ensures multiset(s)[x] <= 1
  {
    if |s| > 0 {
      var t := s[1..];
      assert s == [s[0]] + t;
      assert Distinct(t) by {
        forall i, j | 0 <= i < j < |t|
          ensures t[i] != t[j]
        {
          assert t[i] == s[i + 1] && t[j] == s[j + 1];
        }
      }
      DistinctAtMostOnce(t, x);
    }
  }

  /** A value at two positions occurs at least twice. */
  lemma RepeatCounted(s: seq<string>, i: nat, j: nat)
    requires i < j < |s| && s[i] == s[j]
    ensures multiset(s)[s[i]] >= 2
  {
    var front := s[..j];
    assert s == front + [s[j]] + s[j + 1..];
    assert front[i] == s[i];
    assert s[i] in multiset(front);
  }

  /** Canonical numerals that are pairwise different come out of the sort in
      strictly ascending order: `9` before `10`, and no value twice. */
  lemma SortStrict(s: seq<string>)
    requires AllNumerals(s)
    requires forall i :: 0 <= i < |s| ==> Canonical(s[i])
    requires Distinct(s)
    ensures StrictlyAscending(Sort(s))
  {
    var r := Sort(s);
    forall i, j | 0 <= i < j < |r|
      ensures Value(r[i]) < Value(r[j])
    {
      assert r[i] in multiset(s) && r[j] in multiset(s);
      assert Canonical(r[i]) && Canonical(r[j]) by {
        var a :| 0 <= a < |s| && s[a] == r[i];
        var b :| 0 <= b < |s| && s[b] == r[j];
      }
      ValueInjective(r[i], r[j]);
      if r[i] == r[j] {
        RepeatCounted(r, i, j);
        DistinctAtMostOnce(s, r[i]);
        assert false;
      }
    }
  }

  lemma NineAndTen()
    ensures IsDigits("9") && Value("9") == 9
    ensures IsDigits("10") && Value("10") == 10
  {
    assert "10"[..1] == "1";
    assert "1"[..0] == "9"[..0] == "";
  }

  lemma SortSingle(a: string)
    requires IsDigits(a)
    ensures Sort([a]) == [a]
  {
    assert [a][..0] == [];
  }

  /** Two numerals out of numeric order are swapped, whatever their spelling. */
  lemma SortPair(a: string, b: string)
    requires IsDigits(a) && IsDigits(b) && Value(b) < Value(a)
    ensures Sort([a, b]) == [b, a]
  {
    SortSingle(a);
    assert [a, b][..1] == [a];
    assert Insert(b, [a]) == [b] + [a];
  }

  /** Numeric, not lexical: "9" sorts before "10". */
  lemma NineBeforeTen()
    ensures Sort(["10", "9"]) == ["9", "10"]
  {
    NineAndTen();
    SortPair("10", "9");
  }
}

=== FILE: php_string.dfy ===
/**
 * The PHP string operations the utilities rely on: the truth test of a
 * string, stripping every non-digit, ASCII lower-casing, the `(int)` cast and
 * the integer-shaped numeric strings of PHP 8 comparisons.
 */
module PhpString {
  import opened Decimal
  import Doubles

  /** PHP's `empty()` and boolean test on a string: only "" and "0" are false. */
  predicate Falsy(s: string) {
    s == "" || s == "0"
  }

  /** `preg_replace('/[^0-9]/', '', s)`: keeps the digits of `s`, in order. */
  function StripNonDigits(s: string): (r: string)
    ensures IsDigits(r)
    ensures |r| <= |s|
    ensures IsDigits(s) ==> r == s
  {
    if |s| == 0 then ""
    else
      assert s == [s[0]] + s[1..];
      (if IsDigit(s[0]) then [s[0]] else "") + StripNonDigits(s[1..])
  }

  /** Stripping works piecewise, so the digits keep their relative order. */
  lemma {:induction false} StripConcat(a: string, b: string)
    ensures StripNonDigits(a + b) == StripNonDigits(a) + StripNonDigits(b)
  {
    if |a| > 0 {
      var h := if IsDigit(a[0]) then [a[0]] else "";
      assert (a + b)[0] == a[0];
      assert (a + b)[1..] == a[1..] + b;
      calc {
        StripNonDigits(a + b);
        h + StripNonDigits(a[1..] + b);
        { StripConcat(a[1..], b); }
        h + (StripNonDigits(a[1..]) + StripNonDigits(b));
        (h + StripNonDigits(a[1..])) + StripNonDigits(b);
        StripNonDigits(a) + StripNonDigits(b);
      }
    } else {
      assert a + b == b;
    }
  }

  /** Stripping keeps every digit of `s`, as many times as it occurs. */
  lemma {:induction false} StripKeepsDigits(s: string)
    ensures forall c :: IsDigit(c) ==> multiset(StripNonDigits(s))[c] == multiset(s)[c]
  {
    if |s| > 0 {
      StripKeepsDigits(s[1..]);
      assert s == [s[0]] + s[1..];
    }
  }

  function LowerChar(c: char): char {
    if 'A' <= c <= 'Z' then (c as int + 32) as char else c
  }

  /** `strtolower`: ASCII letters folded to lower case, everything else kept. */
  function ToLower(s: string): (r: string)
    ensures |r| == |s|
    ensures forall i :: 0 <= i < |s| ==> !('A' <= r[i] <= 'Z')
    ensures forall i :: 0 <= i < |s| && !('A' <= s[i] <= 'Z') ==> r[i] == s[i]
    ensures forall i :: 0 <= i < |s| && 'A' <= s[i] <= 'Z' ==> r[i] as int == s[i] as int + 32
  {
    seq(|s|, i requires 0 <= i < |s| => LowerChar(s[i]))
  }

  /** Lower-casing is idempotent. */
  lemma ToLowerIdempotent(s: string)
    ensures ToLower(ToLower(s)) == ToLower(s)
  {
  }

  /** The white space PHP skips around numbers: space, \t, \n, \v, \f, \r. */
  predicate IsSpace(c: char) {
    c == ' ' || 9 <= c as int <= 13
  }

  predicate AllSpaces(s: string) {
    forall i :: 0 <= i < |s| ==> IsSpace(s[i])
  }

  /** `s` without its leading white space. */
  function SkipSpaces(s: string): (r: string)
    ensures |r| <= |s| && r == s[|s| - |r|..]
    ensures |r| > 0 ==> !IsSpace(r[0])
    ensures AllSpaces(s[..|s| - |r|])
  {
    if |s| > 0 && IsSpace(s[0]) then SkipSpaces(s[1..]) else s
  }

  /** Length of the longest run of digits at the start of `s`. */
  function DigitRun(s: string): (k: nat)
    ensures k <= |s|
    ensures IsDigits(s[..k])
    ensures k < |s| ==> !IsDigit(s[k])
  {
    if |s| > 0 && IsDigit(s[0]) then
      var k := 1 + DigitRun(s[1..]);
      assert s[..k] == [s[0]] + s[1..][..k - 1];
      k
    else 0
  }

  /** A string read as PHP reads a leading integer: spaces, a sign, digits, the rest. */
  datatype Scan = Scan(negative: bool, digits: string, rest: string)

  function ScanInteger(s: string): (sc: Scan)
    ensures IsDigits(sc.digits)
    ensures |sc.rest| > 0 ==> !IsDigit(sc.rest[0])
  {
    var t := SkipSpaces(s);
    var signed := |t| > 0 && (t[0] == '-' || t[0] == '+');
    var u := if signed then t[1..] else t;
    var k := DigitRun(u);
    Scan(signed && t[0] == '-', u[..k], u[k..])
  }

  const IntMin: int := -0x8000_0000_0000_0000
  const IntMax: int := 0x7FFF_FFFF_FFFF_FFFF

  predicate InIntRange(n: int) {
    IntMin <= n <= IntMax
  }

  /** Saturation to the 64-bit range, as PHP's string-to-int conversion does. */
  function Saturate(n: int): (r: int)
    ensures InIntRange(r)
    ensures InIntRange(n) ==> r == n
    ensures n < IntMin ==> r == IntMin
    ensures n > IntMax ==> r == IntMax
  {
    if n < IntMin then IntMin else if n > IntMax then IntMax else n
  }

  function SignedValue(sc: Scan): int
    requires IsDigits(sc.digits)
  {
    var v: int := Value(sc.digits);
    if sc.negative then -v else v
  }

  /** `(int) s` and `intval(s)` on a string: the leading integer, 0 when there
      is none. A leading integer past 64 bits is read as a double and capped
      to the 64-bit range, except that a double overflowing to infinity
      gives 0. */
  function IntCast(s: string): (r: int)
    ensures InIntRange(r)
    ensures |ScanInteger(s).digits| == 0 ==> r == 0
  {
    var sc := ScanInteger(s);
    var v := SignedValue(sc);
    if InIntRange(v) then v
    else if Doubles.Infinite(Value(sc.digits)) then 0
    else Saturate(v)
  }

  /** An integer-shaped numeric string in the PHP 8 sense: optional surrounding
      white space, an optional sign, at least one digit. */
  predicate IsNumeric(s: string) {
    var sc := ScanInteger(s);
    |sc.digits| > 0 && AllSpaces(sc.rest)
  }

  /** The number an integer-shaped numeric string denotes (not saturated). */
  function NumericValue(s: string): int
    requires IsNumeric(s)
  {
    SignedValue(ScanInteger(s))
  }

  /** PHP's conversion of an integer to a string. */
  function IntToString(n: int): (s: string)
    ensures |s| > 0
  {
    if n < 0 then "-" + Render(-n) else Render(n)
  }

  lemma DigitRunAll(s: string)
    requires IsDigits(s)
    ensures DigitRun(s) == |s|
  {
  }

  /** Leading white space is skipped up to the first other character. */
  lemma {:induction false} SkipSpacesPrefix(sp: string, x: string)
    requires AllSpaces(sp) && |x| > 0 && !IsSpace(x[0])
    ensures SkipSpaces(sp + x) == x
  {
    if |sp| > 0 {
      assert (sp + x)[0] == sp[0] && (sp + x)[1..] == sp[1..] + x;
      SkipSpacesPrefix(sp[1..], x);
    } else {
      assert sp + x == x;
    }
  }

  /** The digit run of `d + rest` is `d` when `rest` does not go on with a digit. */
  lemma {:induction false} DigitRunPrefix(d: string, rest: string)
    requires IsDigits(d) && (|rest| == 0 || !IsDigit(rest[0]))
    ensures DigitRun(d + rest) == |d|
  {
    if |d| > 0 {
      assert (d + rest)[0] == d[0] && (d + rest)[1..] == d[1..] + rest;
      DigitRunPrefix(d[1..], rest);
    } else {
      assert d + rest == rest;
    }
  }

  /** White space, an optional sign, digits and a rest not starting with a
      digit are read back as those parts. */
  lemma ScanOfParts(sp: string, sign: string, d: string, rest: string)
    requires AllSpaces(sp)
    requires sign == "" || sign == "+" || sign == "-"
    requires |d| > 0 && IsDigits(d)
    requires |rest| == 0 || !IsDigit(rest[0])
    ensures ScanInteger(sp + sign + d + rest) == Scan(sign == "-", d, rest)
  {
    var u := d + rest;
    var x := sign + u;
    assert sp + sign + d + rest == sp + x;
    assert !IsSpace(x[0]) by {
      if |sign| > 0 { assert x[0] == sign[0]; } else { assert x[0] == d[0]; }
    }
    SkipSpacesPrefix(sp, x);
    var t := SkipSpaces(sp + x);
    var signed := |t| > 0 && (t[0] == '-' || t[0] == '+');
    assert signed <==> |sign| > 0 by {
      if |sign| == 0 { assert t[0] == d[0]; }
    }
    assert (if signed then t[1..] else t) == u;
    DigitRunPrefix(d, rest);
    assert u[..|d|] == d && u[|d|..] == rest;
  }

  /** A rest that makes PHP read the number before it as a double: a
      decimal point, or an exponent marker followed by an optional sign and
      a digit. */
  predicate StartsDoublePart(rest: string) {
    && |rest| > 0
    && (|| rest[0] == '.'
        || ((rest[0] == 'e' || rest[0] == 'E')
            && ((|rest| > 1 && IsDigit(rest[1]))
                || (|rest| > 2 && (rest[1] == '+' || rest[1] == '-') && IsDigit(rest[2])))))
  }

  /** `(int)` of white space, an optional sign, digits and a rest that
      neither goes on with a digit nor starts a fraction or an exponent: the
      signed value of the digits, saturated to the 64-bit range, or 0 when
      the digits are too large for a double. So `(int) "  -12abc"` is -12
      and `(int) "99999999999999999999"` is `PHP_INT_MAX`. */
  lemma IntCastOfParts(sp: string, sign: string, d: string, rest: string)
    requires AllSpaces(sp)
    requires sign == "" || sign == "+" || sign == "-"
    requires |d| > 0 && IsDigits(d)
    requires |rest| == 0 || !IsDigit(rest[0])
    requires !StartsDoublePart(rest)
    ensures !Doubles.Infinite(Value(d)) ==>
      IntCast(sp + sign + d + rest) == Saturate((if sign == "-" then -1 else 1) * Value(d))
    ensures Doubles.Infinite(Value(d)) ==> IntCast(sp + sign + d + rest) == 0
  {
    ScanOfParts(sp, sign, d, rest);
    if Value(d) <= IntMax + 1 {
      Doubles.FiniteBelow(Value(d));
    }
  }

  /** A digit string too large for a double, 2^1024 or more, casts to 0:
      the double is infinite, and an infinite double converts to 0. */
  lemma IntCastPastDoubles(d: string)
    requires |d| > 0 && IsDigits(d) && Value(d) >= Doubles.TwoTo1024
    ensures IntCast(d) == 0
  {
    ScanDigits(d);
    Doubles.InfiniteFrom(Value(d));
  }

  /** A digit string is read whole. */
  lemma ScanDigits(d: string)
    requires |d| > 0 && IsDigits(d)
    ensures ScanInteger(d) == Scan(false, d, "")
  {
    assert IsDigit(d[0]) && !IsSpace(d[0]);
    assert SkipSpaces(d) == d;
    DigitRunAll(d);
    assert d[..|d|] == d && d[|d|..] == "";
  }

  /** A minus sign followed by a digit string is read whole. */
  lemma ScanNegated(d: string)
    requires |d| > 0 && IsDigits(d)
    ensures ScanInteger("-" + d) == Scan(true, d, "")
  {
    var m := "-" + d;
    assert m[0] == '-' && !IsSpace(m[0]);
    assert SkipSpaces(m) == m;
    assert m[1..] == d;
    DigitRunAll(d);
    assert d[..|d|] == d && d[|d|..] == "";
  }

  /** The `(int)` cast reads back what integer-to-string conversion wrote, and
      the rendering is a numeric string of the same value. */
  lemma CastOfIntToString(n: int)
    requires InIntRange(n)
    ensures IsNumeric(IntToString(n))
    ensures NumericValue(IntToString(n)) == n
    ensures IntCast(IntToString(n)) == n
  {
    var m: nat := if n < 0 then -n else n;
    ValueOfRender(m);
    if n < 0 {
      ScanNegated(Render(m));
    } else {
      ScanDigits(Render(m));
    }
  }
}

=== FILE: php_value.dfy ===
/**
 * The scalar PHP values a preference can hold after the editor's coercion
 * (booleans, integers, strings) and PHP 8's loose comparison `==` on them,
 * which is what `!=` on two preference arrays applies to each entry.
 */
module PhpValue {
  import opened PhpString
  import opened Doubles
  import Decimal

  datatype Value = Bool(b: bool) | Int(i: int) | Str(s: string)

  /** PHP's conversion of a value to boolean. */
  predicate Truthy(v: Value) {
    match v
    case Bool(b) => b
    case Int(i) => i != 0
    case Str(s) => !Falsy(s)
  }

  /** An integer against the number a numeric string denotes: exactly when the
      string fits in 64 bits, otherwise both sides as doubles. */
  predicate IntEqualsNumber(x: int, v: int) {
    if InIntRange(v) then x == v else ToDouble(x) == ToDouble(v)
  }

  /** Two integer-shaped numeric strings: as integers when both fit in 64
      bits; never equal when only one of them overflows; when both overflow,
      equal only if they overflow on the same side with the same double and
      are then the same string byte for byte. */
  predicate NumericStringsEqual(s: string, t: string)
    requires IsNumeric(s) && IsNumeric(t)
  {
    var a := NumericValue(s);
    var b := NumericValue(t);
    if InIntRange(a) && InIntRange(b) then a == b
    else if InIntRange(a) || InIntRange(b) then false
    else (a > IntMax) == (b > IntMax) && ToDouble(a) == ToDouble(b) && s == t
  }

  /** PHP 8 `a == b`: a boolean side compares truth values; two numeric strings,
      or an integer and a numeric string, compare as numbers (with the 64-bit
      overflow rules above); an integer and a non-numeric string compare as
      strings. */
  predicate LooseEquals(a: Value, b: Value) {
    match (a, b)
    case (Bool(x), _) => x == Truthy(b)
    case (_, Bool(y)) => Truthy(a) == y
    case (Int(x), Int(y)) => x == y
    case (Int(x), Str(t)) => if IsNumeric(t) then IntEqualsNumber(x, NumericValue(t)) else IntToString(x) == t
    case (Str(s), Int(y)) => if IsNumeric(s) then IntEqualsNumber(y, NumericValue(s)) else s == IntToString(y)
    case (Str(s), Str(t)) => if IsNumeric(s) && IsNumeric(t) then NumericStringsEqual(s, t) else s == t
  }

  /** Every value is loosely equal to itself. */
  lemma LooseReflexive(a: Value)
    ensures LooseEquals(a, a)
  {
  }

  /** Loose equality does not depend on the order of its operands. */
  lemma LooseSymmetric(a: Value, b: Value)
    ensures LooseEquals(a, b) <==> LooseEquals(b, a)
  {
    match (a, b)
    case (Str(s), Str(t)) =>
      if IsNumeric(s) && IsNumeric(t) {
        NumericStringsSymmetric(s, t);
      }
    case _ =>
  }

  lemma NumericStringsSymmetric(s: string, t: string)
    requires IsNumeric(s) && IsNumeric(t)
    ensures NumericStringsEqual(s, t) == NumericStringsEqual(t, s)
  {
  }

  /** A numeral and the integer it spells are loosely equal. */
  lemma NumeralEqualsInt()
    ensures LooseEquals(Str("1"), Int(1))
  {
    ScanDigits("1");
    assert Decimal.Value("1") == 1;
  }

  /** A leading zero does not change a number's value. */
  lemma {:induction false} LeadingZeroValue(d: string)
    requires Decimal.IsDigits(d)
    ensures Decimal.IsDigits("0" + d)
    ensures Decimal.Value("0" + d) == Decimal.Value(d)
  {
    if |d| > 0 {
      var p := d[..|d| - 1];
      LeadingZeroValue(p);
      assert ("0" + d)[..|d|] == "0" + p;
    } else {
      assert Decimal.Value("0") == 0;
    }
  }

  /** Two spellings of one 64-bit number, with and without a leading zero,
      are loosely equal. */
  lemma LeadingZeroSpellingsEqual(d: string)
    requires |d| > 0 && Decimal.IsDigits(d) && Decimal.Value(d) <= IntMax
    ensures LooseEquals(Str("0" + d), Str(d))
  {
    LeadingZeroValue(d);
    ScanDigits(d);
    ScanDigits("0" + d);
  }

  /** Integers and their PHP rendering are loosely equal. */
  lemma IntEqualsItsString(n: int)
    requires InIntRange(n)
    ensures LooseEquals(Int(n), Str(IntToString(n)))
  {
    CastOfIntToString(n);
  }

  /** Past 64 bits the spellings differ: two overflowing numeric strings are
      equal only as the same string. */
  lemma OverflowSpellingsDiffer(d: string)
    requires |d| > 0 && Decimal.IsDigits(d) && Decimal.Value(d) > IntMax
    ensures !LooseEquals(Str("0" + d), Str(d))
  {
    LeadingZeroValue(d);
    ScanDigits(d);
    ScanDigits("0" + d);
    assert |"0" + d| != |d|;
  }

  /** `PHP_INT_MAX` rounds up to the double 2^63. */
  lemma RoundIntMax()
    ensures ToDouble(IntMax) == IntMax + 1
  {
    assert CutAt53(9007199254740991) == Cut(9007199254740991, 0, 1);
    assert CutAt53(18014398509481983) == Cut(9007199254740991, 1, 2);
    assert CutAt53(36028797018963967) == Cut(9007199254740991, 3, 4);
    assert CutAt53(72057594037927935) == Cut(9007199254740991, 7, 8);
    assert CutAt53(144115188075855871) == Cut(9007199254740991, 15, 16);
    assert CutAt53(288230376151711743) == Cut(9007199254740991, 31, 32);
    assert CutAt53(576460752303423487) == Cut(9007199254740991, 63, 64);
    assert CutAt53(1152921504606846975) == Cut(9007199254740991, 127, 128);
    assert CutAt53(2305843009213693951) == Cut(9007199254740991, 255, 256);
    assert CutAt53(4611686018427387903) == Cut(9007199254740991, 511, 512);
    assert CutAt53(9223372036854775807) == Cut(9007199254740991, 1023, 1024);
  }

  /** 2^63 is itself a double. */
  lemma RoundTwoTo63()
    ensures ToDouble(IntMax + 1) == IntMax + 1
  {
    assert CutAt53(4503599627370496) == Cut(4503599627370496, 0, 1);
    assert CutAt53(9007199254740992) == Cut(4503599627370496, 0, 2);
    assert CutAt53(18014398509481984) == Cut(4503599627370496, 0, 4);
    assert CutAt53(36028797018963968) == Cut(4503599627370496, 0, 8);
    assert CutAt53(72057594037927936) == Cut(4503599627370496, 0, 16);
    assert CutAt53(144115188075855872) == Cut(4503599627370496, 0, 32);
    assert CutAt53(288230376151711744) == Cut(4503599627370496, 0, 64);
    assert CutAt53(576460752303423488) == Cut(4503599627370496, 0, 128);
    assert CutAt53(1152921504606846976) == Cut(4503599627370496, 0, 256);
    assert CutAt53(2305843009213693952) == Cut(4503599627370496, 0, 512);
    assert CutAt53(4611686018427387904) == Cut(4503599627370496, 0, 1024);
    assert CutAt53(9223372036854775808) == Cut(4503599627370496, 0, 2048);
  }

  /** `PHP_INT_MAX` and 2^63 both round to the double 2^63. */
  lemma RoundNearTwoTo63()
    ensures ToDouble(IntMax) == IntMax + 1
    ensures ToDouble(IntMax + 1) == IntMax + 1
  {
    RoundIntMax();
    RoundTwoTo63();
  }

  /** `PHP_INT_MAX == "9223372036854775808"`: the string overflows, and both
      sides become the double 2^63. */
  lemma IntMaxEqualsTwoTo63String()
    ensures LooseEquals(Int(IntMax), Str(Decimal.Render(IntMax + 1)))
  {
    TwoTo63Numeric();
    RoundNearTwoTo63();
    IntEqualsOverflowing(IntMax, Decimal.Render(IntMax + 1));
  }

  /** An integer equals an overflowing numeric string when their doubles agree. */
  lemma IntEqualsOverflowing(x: int, t: string)
    requires IsNumeric(t) && !InIntRange(NumericValue(t))
    requires ToDouble(x) == ToDouble(NumericValue(t))
    ensures LooseEquals(Int(x), Str(t))
  {
  }

  /** The digits of 2^63 form a numeric string of that value. */
  lemma TwoTo63Numeric()
    ensures IsNumeric(Decimal.Render(IntMax + 1))
    ensures NumericValue(Decimal.Render(IntMax + 1)) == IntMax + 1
  {
    var t := Decimal.Render(IntMax + 1);
    ScanDigits(t);
    Decimal.ValueOfRender(IntMax + 1);
  }
}

=== FILE: preferences.dfy ===
/**
 * The decision logic of `rcmail_utils::mod_pref`: coerce the new value by a
 * case-insensitive type name, set it on every selected account's preference
 * array, and save an account only when its array compares unequal (PHP's
 * loose `!=`) to what it was.
 *
 * The account table is a sequence of users in the order the query returns
 * them; `rcube_utils::get_boolean` is the parameter `toBool`; saving is
 * modelled as storing the new preference map.
 */
module Preferences {
  import opened Wrappers
  import opened PhpString
  import opened PhpValue

  datatype User = User(id: int, prefs: map<string, Value>)

  /** Type names that ask for a boolean, compared after lower-casing. */
  predicate IsBoolType(typ: string) {
    ToLower(typ) == "bool" || ToLower(typ) == "boolean"
  }

  /** Type names that ask for an integer, compared after lower-casing. */
  predicate IsIntType(typ: string) {
    ToLower(typ) == "int" || ToLower(typ) == "integer"
  }

  /** The new value coerced to the requested type; any other type name leaves
      the string as it is. */
  function Coerce(value: string, typ: string, toBool: string -> bool): (v: Value)
    ensures v.Bool? <==> IsBoolType(typ)
    ensures v.Int? <==> IsIntType(typ)
    ensures v.Bool? ==> v.b == toBool(value)
    ensures v.Int? ==> v.i == IntCast(value) && InIntRange(v.i)
    ensures v.Str? ==> v.s == value
  {
    var t := ToLower(typ);
    if t == "bool" || t == "boolean" then Bool(toBool(value))
    else if t == "int" || t == "integer" then Int(IntCast(value))
    else Str(value)
  }

  /** Coercion depends on the type name only up to letter case. */
  lemma CoerceIgnoresCase(value: string, typ: string, toBool: string -> bool)
    ensures Coerce(value, typ, toBool) == Coerce(value, ToLower(typ), toBool)
  {
    ToLowerIdempotent(typ);
  }

  /** `a` and `b` spell the same word up to the case of ASCII letters,
      compared character by character. */
  predicate SameUpToCase(a: string, b: string) {
    |a| == |b| &&
    forall i :: 0 <= i < |a| ==>
      a[i] == b[i]
      || ('A' <= a[i] <= 'Z' && b[i] as int == a[i] as int + 32)
      || ('A' <= b[i] <= 'Z' && a[i] as int == b[i] as int + 32)
  }

  /** Type names that differ only in letter case ask for the same coercion. */
  lemma CoerceCaseInsensitive(value: string, a: string, b: string, toBool: string -> bool)
    requires SameUpToCase(a, b)
    ensures Coerce(value, a, toBool) == Coerce(value, b, toBool)
  {
    assert ToLower(a) == ToLower(b);
  }

  /** The four type names that select a coercion are already lower case. */
  lemma TypeNamesLowerCase()
    ensures ToLower("bool") == "bool" && ToLower("boolean") == "boolean"
    ensures ToLower("int") == "int" && ToLower("integer") == "integer"
  {
  }

  /** `bool` or `boolean` in any letter case, `BOOL` and `Boolean` among
      them, asks for a boolean. */
  lemma BoolTypeInAnyCase(value: string, typ: string, toBool: string -> bool)
    requires SameUpToCase(typ, "bool") || SameUpToCase(typ, "boolean")
    ensures Coerce(value, typ, toBool) == Bool(toBool(value))
  {
    TypeNamesLowerCase();
    var lower := if SameUpToCase(typ, "bool") then "bool" else "boolean";
    CoerceCaseInsensitive(value, typ, lower, toBool);
    assert IsBoolType(lower);
  }

  /** `int` or `integer` in any letter case, `INT` and `Integer` among them,
      asks for an integer. */
  lemma IntTypeInAnyCase(value: string, typ: string, toBool: string -> bool)
    requires SameUpToCase(typ, "int") || SameUpToCase(typ, "integer")
    ensures Coerce(value, typ, toBool) == Int(IntCast(value))
  {
    TypeNamesLowerCase();
    var lower := if SameUpToCase(typ, "int") then "int" else "integer";
    CoerceCaseInsensitive(value, typ, lower, toBool);
    assert IsIntType(lower) && !IsBoolType(lower);
  }

  /** An integer written out in decimal comes back as that integer. */
  lemma CoerceIntRoundTrip(n: int, toBool: string -> bool)
    requires InIntRange(n)
    ensures Coerce(IntToString(n), "int", toBool) == Int(n)
  {
    assert ToLower("int") == "int";
    CastOfIntToString(n);
  }

  /** PHP's `$a == $b` on two arrays: same keys, loosely equal values. */
  predicate LooseMapEquals(a: map<string, Value>, b: map<string, Value>) {
    a.Keys == b.Keys && forall k :: k in a ==> LooseEquals(a[k], b[k])
  }

  /** Setting one key changes the array, in the sense of `!=`, exactly when the
      key was absent or held a value not loosely equal to the new one. */
  lemma SetKeyDiffers(prefs: map<string, Value>, name: string, v: Value)
    ensures !LooseMapEquals(prefs[name := v], prefs) <==> name !in prefs || !LooseEquals(prefs[name], v)
  {
    var m := prefs[name := v];
    if name in prefs && LooseEquals(prefs[name], v) {
      forall k | k in m
        ensures LooseEquals(m[k], prefs[k])
      {
        if k == name {
          LooseSymmetric(prefs[name], v);
        } else {
          LooseReflexive(prefs[k]);
        }
      }
    } else if name in prefs {
      LooseSymmetric(prefs[name], v);
      assert !LooseEquals(m[name], prefs[name]);
    }
  }

  /** What happens to one account: not selected, saved with a new array, or
      left alone because nothing changed. */
  datatype Outcome = Skipped | Saved(prefs: map<string, Value>) | Unchanged

  /** Lines 391-401: set the key, and save when the whole array differs from
      the original. Since every other entry is untouched, that is exactly when
      the key was absent or held a value not loosely equal to the new one. */
  function EditUser(u: User, name: string, v: Value): (o: Outcome)
    ensures !o.Skipped?
    ensures o.Saved? <==> name !in u.prefs || !LooseEquals(u.prefs[name], v)
    ensures o.Saved? ==> o.prefs == u.prefs[name := v]
  {
    var prefs := u.prefs[name := v];
    SetKeyDiffers(u.prefs, name, v);
    if !LooseMapEquals(prefs, u.prefs) then Saved(prefs) else Unchanged
  }

  /** `$userid` selects the single account `intval($userid)` when it is given
      and not PHP-empty; otherwise every account is selected. */
  predicate Selected(u: User, userid: Option<string>) {
    userid.None? || Falsy(userid.value) || u.id == IntCast(userid.value)
  }

  /** One account of the loop of lines 387-402: its outcome and its stored state
      afterwards. */
  function Visit(u: User, name: string, v: Value, userid: Option<string>): (r: (User, Outcome))
    ensures r.0.id == u.id
    ensures r.1.Skipped? <==> !Selected(u, userid)
    ensures r.1.Skipped? || r.1.Unchanged? ==> r.0 == u
    ensures r.1.Saved? ==> r.0.prefs == r.1.prefs == u.prefs[name := v]
    ensures Selected(u, userid) ==> name in r.0.prefs && LooseEquals(r.0.prefs[name], v)
    ensures Selected(u, userid) ==> r.1 == EditUser(u, name, v)
  {
    if !Selected(u, userid) then (u, Skipped)
    else
      var o := EditUser(u, name, v);
      LooseReflexive(v);
      if o.Saved? then (User(u.id, o.prefs), o) else (u, o)
  }

  datatype Run = Run(users: seq<User>, outcomes: seq<Outcome>)

  /** `mod_pref($name, $value, $userid, $type)` over the account table: the
      accounts afterwards and, for each, what happened to it. */
  function ModPref(users: seq<User>, name: string, value: string, userid: Option<string>,
                   typ: string, toBool: string -> bool): (r: Run)
    ensures |r.users| == |users| && |r.outcomes| == |users|
    ensures forall i :: 0 <= i < |users| ==>
              (r.users[i], r.outcomes[i]) == Visit(users[i], name, Coerce(value, typ, toBool), userid)
  {
    if |users| == 0 then Run([], [])
    else
      var rest := ModPref(users[1..], name, value, userid, typ, toBool);
      var here := Visit(users[0], name, Coerce(value, typ, toBool), userid);
      Run([here.0] + rest.users, [here.1] + rest.outcomes)
  }

  /** Running the same edit twice: the second run saves nothing and changes
      nothing. */
  lemma ModPrefIdempotent(users: seq<User>, name: string, value: string,
                          userid: Option<string>, typ: string, toBool: string -> bool)
    ensures var once := ModPref(users, name, value, userid, typ, toBool);
            var twice := ModPref(once.users, name, value, userid, typ, toBool);
            twice.users == once.users && forall i :: 0 <= i < |users| ==> !twice.outcomes[i].Saved?
  {
    var v := Coerce(value, typ, toBool);
    var once := ModPref(users, name, value, userid, typ, toBool);
    var twice := ModPref(once.users, name, value, userid, typ, toBool);
    forall i | 0 <= i < |users|
      ensures twice.users[i] == once.users[i] && !twice.outcomes[i].Saved?
    {
      var u := once.users[i];
      assert Visit(u, name, v, userid) == (twice.users[i], twice.outcomes[i]);
    }
  }
}

=== FILE: schema_upgrade.dfy ===
/**
 * The schema upgrade walker of `rcmail_utils::db_update`: resolve the current
 * schema version, pick the upgrade files `<version>.sql` of the dialect
 * directory that are newer, apply them in ascending numeric order, record
 * each recorded version in the `system` table, and stop at the first failure.
 *
 * Nothing of the filesystem or the database driver is executed here: the
 * directory tests, the listing, the readable file contents and the outcome of
 * running a script are all inputs (`Schema`).
 */
module SchemaUpgrade {
  import opened Wrappers
  import opened Decimal
  import opened PhpString
  import opened SystemTable
  import opened NumericSort

  /** The last schema version before the `system` table existed. */
  const AssumedVersion: nat := 2012080700

  /** Upgrades from this version on record themselves in the `system` table. */
  const RecordedFrom: nat := 2013011000

  /** Schema versions of releases that predate version tracking. */
  const LegacyReleases: map<string, nat> := map[
    "0.1-stable" := 1,
    "0.1.1"      := 2008030300,
    "0.2-alpha"  := 2008040500,
    "0.2-beta"   := 2008060900,
    "0.2-stable" := 2008092100,
    "0.2.1"      := 2008092100,
    "0.2.2"      := 2008092100,
    "0.3-stable" := 2008092100,
    "0.3.1"      := 2009090400,
    "0.4-beta"   := 2009103100,
    "0.4"        := 2010042300,
    "0.4.1"      := 2010042300,
    "0.4.2"      := 2010042300,
    "0.5-beta"   := 2010100600,
    "0.5"        := 2010100600,
    "0.5.1"      := 2010100600,
    "0.5.2"      := 2010100600,
    "0.5.3"      := 2010100600,
    "0.5.4"      := 2010100600,
    "0.6-beta"   := 2011011200,
    "0.6"        := 2011011200,
    "0.7-beta"   := 2011092800,
    "0.7"        := 2011111600,
    "0.7.1"      := 2011111600,
    "0.7.2"      := 2011111600,
    "0.7.3"      := 2011111600,
    "0.7.4"      := 2011111600,
    "0.8-beta"   := 2011121400,
    "0.8-rc"     := 2011121400,
    "0.8.0"      := 2011121400,
    "0.8.1"      := 2011121400,
    "0.8.2"      := 2011121400,
    "0.8.3"      := 2011121400,
    "0.8.4"      := 2011121400,
    "0.8.5"      := 2011121400,
    "0.8.6"      := 2011121400,
    "0.9-beta"   := 2012080700
  ]

  /** Every legacy release maps to a version PHP does not consider empty, and
      none of them is newer than the assumed pre-tracking version. */
  lemma LegacyBounded()
    ensures forall k :: k in LegacyReleases ==> 0 < LegacyReleases[k] <= AssumedVersion
    ensures forall k :: k in LegacyReleases ==> !Falsy(k)
  {
  }

  // ---------------------------------------------------------------------------
  // Starting version

  /** The stored version is used: a row exists and its digits are not PHP-empty. */
  predicate StoredCounts(t: System, package: string) {
    DbVersion(t, package).Some? && !Falsy(DbVersion(t, package).value)
  }

  /** `$version` after lines 114-169: the stored version unless it is PHP-empty,
      then the legacy mapping of a given release, then AssumedVersion. */
  function StartVersion(t: System, package: string, release: Option<string>): (start: nat)
    ensures StoredCounts(t, package) ==> start == Value(DbVersion(t, package).value)
    ensures start > AssumedVersion ==> StoredCounts(t, package)
    ensures start == 0 ==> StoredCounts(t, package)
  {
    LegacyBounded();
    var stored := DbVersion(t, package);
    if stored.Some? && !Falsy(stored.value) then Value(stored.value)
    else if release.Some? && !Falsy(release.value) && release.value in LegacyReleases then LegacyReleases[release.value]
    else AssumedVersion
  }

  /** A stored "" or "0" (or no row, or no table) are all the same to the walker. */
  lemma StoredEmptyIgnored(t: System, package: string, release: Option<string>)
    requires DbVersion(t, package) in {None, Some(""), Some("0")}
    ensures StartVersion(t, package, release) == StartVersion(Missing, package, release)
  {
  }

  /** Without a usable stored version, a known release gives its legacy version. */
  lemma KnownReleaseUsed(t: System, package: string, release: string)
    requires !StoredCounts(t, package)
    requires release in LegacyReleases
    ensures StartVersion(t, package, Some(release)) == LegacyReleases[release]
  {
    LegacyBounded();
  }

  /** Without a usable stored version, an unknown or absent release falls back. */
  lemma UnknownReleaseFallsBack(t: System, package: string, release: Option<string>)
    requires !StoredCounts(t, package)
    requires release.None? || release.value !in LegacyReleases
    ensures StartVersion(t, package, release) == AssumedVersion
  {
  }

  // ---------------------------------------------------------------------------
  // Selecting the upgrade files

  /** The version named by an upgrade file `<digits>.sql`, the name matched as a
      whole. */
  function UpgradeNumber(name: string): (d: Option<string>)
    ensures d.Some? ==> |d.value| > 0 && IsDigits(d.value) && name == d.value + ".sql"
  {
    if |name| > 4 && name[|name| - 4..] == ".sql" && IsDigits(name[..|name| - 4]) then
      assert name == name[..|name| - 4] + ".sql";
      Some(name[..|name| - 4])
    else None
  }

  /** Every `<digits>.sql` name is recognised, with its digits. */
  lemma UpgradeNumberOf(v: string)
    requires |v| > 0 && IsDigits(v)
    ensures UpgradeNumber(v + ".sql") == Some(v)
  {
    var name := v + ".sql";
    assert name[|name| - 4..] == ".sql" && name[..|name| - 4] == v;
  }

  /** The match of `preg_match('/^([0-9]+)\.sql$/', ...)` as PCRE performs it:
      without the D modifier, `$` also matches just before a final newline. */
  function UpgradeNumberAsWritten(name: string): (d: Option<string>)
    ensures UpgradeNumber(name).Some? ==> d == UpgradeNumber(name)
  {
    if UpgradeNumber(name).Some? then UpgradeNumber(name)
    else if |name| > 0 && name[|name| - 1] == '\n' then UpgradeNumber(name[..|name| - 1])
    else None
  }

  /** The pattern as written accepts "12.sql\n", a name that is not `12.sql`,
      yet the walker then reads and applies the different file `12.sql`. */
  lemma TrailingNewlineAccepted()
    ensures UpgradeNumberAsWritten("12.sql\n") == Some("12")
    ensures "12.sql\n" != "12" + ".sql"
    ensures UpgradeNumber("12.sql\n").None?
  {
    var name := "12.sql\n";
    assert name[|name| - 4..] == "sql\n";
    assert name[..|name| - 1] == "12" + ".sql";
    UpgradeNumberOf("12");
  }

  /** `v` names an upgrade file of the listing that is newer than `start`. */
  predicate Pending(listing: seq<string>, start: nat, v: string) {
    |v| > 0 && IsDigits(v) && v + ".sql" in listing && Value(v) > start
  }

  /** The versions of the newer upgrade files, in listing order (lines 182-186).
      Every entry of the listing is examined; `ScannedAsWritten` is the loop
      as it is written, which can end early. */
  function Select(listing: seq<string>, start: nat): (r: seq<string>)
    ensures AllNumerals(r)
    ensures forall i :: 0 <= i < |r| ==> Pending(listing, start, r[i])
    ensures forall v :: Pending(listing, start, v) ==> v in r
    ensures Distinct(listing) ==> Distinct(r)
  {
    if |listing| == 0 then []
    else
      var rest := Select(listing[1..], start);
      assert forall v :: Pending(listing, start, v) && v + ".sql" != listing[0] ==> Pending(listing[1..], start, v);
      assert forall v :: Pending(listing, start, v) && v + ".sql" == listing[0] ==> UpgradeNumber(listing[0]) == Some(v) by {
        forall v | Pending(listing, start, v) && v + ".sql" == listing[0] {
          UpgradeNumberOf(v);
        }
      }
      match UpgradeNumber(listing[0])
      case Some(v) =>
        if Value(v) > start then
          assert Distinct(listing) ==> listing[0] !in listing[1..];
          assert Distinct(listing) ==> v !in rest;
          [v] + rest
        else rest
      case None => rest
  }

  /** The entries `while ($file = readdir($dh))` of line 182 visits: the loop
      ends at the first entry PHP reads as false, so a file named `0` hides
      every entry listed after it. */
  function ScannedAsWritten(listing: seq<string>): (r: seq<string>)
    ensures |r| <= |listing| && r == listing[..|r|]
    ensures forall i :: 0 <= i < |r| ==> !Falsy(r[i])
    ensures |r| < |listing| ==> Falsy(listing[|r|])
  {
    if |listing| == 0 || Falsy(listing[0]) then []
    else
      var rest := ScannedAsWritten(listing[1..]);
      assert [listing[0]] + rest == listing[..1 + |rest|];
      [listing[0]] + rest
  }

  /** The scan as written sees the whole listing exactly when no entry is
      named `0` (or is empty). */
  lemma ScannedAsWrittenWhole(listing: seq<string>)
    ensures ScannedAsWritten(listing) == listing
            <==> forall i :: 0 <= i < |listing| ==> !Falsy(listing[i])
  {
    var r := ScannedAsWritten(listing);
    if forall i :: 0 <= i < |listing| ==> !Falsy(listing[i]) {
      assert |r| == |listing|;
    }
  }

  /** The listing's upgrade files carry no redundant leading zeros. */
  predicate CanonicalNames(listing: seq<string>) {
    forall i :: 0 <= i < |listing| && UpgradeNumber(listing[i]).Some? ==> Canonical(UpgradeNumber(listing[i]).value)
  }

  /** The upgrade queue: pending versions in ascending numeric order (line 187). */
  function Queue(listing: seq<string>, start: nat): (q: seq<string>)
    ensures AllNumerals(q) && Ascending(q)
    ensures forall v :: v in q <==> Pending(listing, start, v)
  {
    var selected := Select(listing, start);
    var q := Sort(selected);
    assert forall v :: v in q <==> v in multiset(selected);
    q
  }

  /** With distinct, canonically numbered file names the queue is strictly
      ascending: no version twice, `9` before `10`. */
  lemma QueueStrictlyAscending(listing: seq<string>, start: nat)
    requires Distinct(listing) && CanonicalNames(listing)
    ensures StrictlyAscending(Queue(listing, start))
  {
    var selected := Select(listing, start);
    forall i | 0 <= i < |selected|
      ensures Canonical(selected[i])
    {
      var v := selected[i];
      var j :| 0 <= j < |listing| && listing[j] == v + ".sql";
      UpgradeNumberOf(v);
    }
    SortStrict(selected);
  }

  // ---------------------------------------------------------------------------
  // Applying one file: db_update_schema

  /** What running a script does: it fails, or it succeeds and possibly creates
      the `system` table. */
  datatype ScriptResult = ScriptFailed | ScriptApplied(createsSystemTable: bool)

  /** The filesystem and script runner the walker sees. */
  datatype Schema = Schema(
    hasSchemaDir: bool,                // file_exists($dir)
    hasDialectDir: bool,               // file_exists("$dir/<dialect>")
    listing: seq<string>,              // readdir of the dialect directory
    files: map<string, string>,        // readable files of that directory, by name
    exec: string -> ScriptResult)      // exec_script on a script's text

  /** `file_get_contents("$dir/$v.sql")`, None for an unreadable file. */
  function ReadScript(s: Schema, v: string): Option<string> {
    if v + ".sql" in s.files then Some(s.files[v + ".sql"]) else None
  }

  /** The script of version `v` is run: the file was read and is not PHP-empty. */
  predicate Runs(s: Schema, v: string) {
    ReadScript(s, v).Some? && !Falsy(ReadScript(s, v).value)
  }

  datatype Stop = NoSchemaDir | NoDialectDir | ScriptError(version: string) | RecordError(version: string)

  datatype Step = Applied(table: System) | Failed(reason: Stop)

  /** The script of version `v` is run and reports an error. */
  predicate ScriptFails(s: Schema, v: string) {
    Runs(s, v) && s.exec(ReadScript(s, v).value).ScriptFailed?
  }

  /** A version records itself in the `system` table when it is a number at or
      past the cutoff of line 231. */
  predicate RecordsItself(v: string) {
    IsDigits(v) && Value(v) >= RecordedFrom
  }

  /** `db_update_schema`: run the script when there is one, then record the
      version when it is recent enough. */
  function UpdateSchema(s: Schema, t: System, package: string, v: string): (step: Step)
    ensures step.Failed? ==> step.reason in {ScriptError(v), RecordError(v)}
    ensures step == Failed(ScriptError(v)) <==> ScriptFails(s, v)
    ensures step == Failed(RecordError(v)) ==> RecordsItself(v) && t.Missing?
    ensures t.Present? ==> (step.Failed? <==> ScriptFails(s, v))
    ensures t.Present? && step.Applied? ==> step.table.Present?
  {
    var script := ReadScript(s, v);
    var result := if script.Some? && !Falsy(script.value) then s.exec(script.value) else ScriptApplied(false);
    if result.ScriptFailed? then Failed(ScriptError(v))
    else
      var t' := if result.createsSystemTable && t.Missing? then Present([]) else t;
      if !RecordsItself(v) then Applied(t')
      else
        match SetVersion(t', package, v)
        case WriteFailed => Failed(RecordError(v))
        case Written(t'') => Applied(t'')
  }

  /** What an applied step leaves in the `system` table: below the cutoff the
      rows as they were; from the cutoff on the component's version, in a single
      row unless there were several; every other name as it was. */
  lemma UpdateSchemaTable(s: Schema, t: System, package: string, v: string)
    requires UpdateSchema(s, t, package, v).Applied?
    ensures var after := Rows(UpdateSchema(s, t, package, v).table);
            !RecordsItself(v) ==> after == Rows(t)
    ensures var after := Rows(UpdateSchema(s, t, package, v).table);
            RecordsItself(v) ==> Lookup(after, VersionKey(package)) == Some(v)
    ensures var after := Rows(UpdateSchema(s, t, package, v).table);
            RecordsItself(v) ==>
              Count(after, VersionKey(package)) == if Count(Rows(t), VersionKey(package)) == 0 then 1 else Count(Rows(t), VersionKey(package))
    ensures var after := Rows(UpdateSchema(s, t, package, v).table);
            forall k :: k != VersionKey(package) ==> Lookup(after, k) == Lookup(Rows(t), k)
  {
    forall k | k != VersionKey(package)
      ensures Lookup(Rows(UpdateSchema(s, t, package, v).table), k) == Lookup(Rows(t), k)
    {
      var script := ReadScript(s, v);
      var result := if script.Some? && !Falsy(script.value) then s.exec(script.value) else ScriptApplied(false);
      var t' := if result.createsSystemTable && t.Missing? then Present([]) else t;
      if RecordsItself(v) {
        SetVersionOthers(t', package, v, k);
      }
    }
  }

  /** An unreadable or empty upgrade file is not an error: with the table in
      place, its version is recorded all the same. */
  lemma UnreadableFileRecorded(s: Schema, t: System, package: string, v: string)
    requires RecordsItself(v) && t.Present?
    requires ReadScript(s, v).None? || ReadScript(s, v) == Some("")
    ensures UpdateSchema(s, t, package, v).Applied?
    ensures Lookup(Rows(UpdateSchema(s, t, package, v).table), VersionKey(package)) == Some(v)
  {
    UpdateSchemaTable(s, t, package, v);
  }

  // ---------------------------------------------------------------------------
  // The walk over the queue

  /** The last version of `vs` that records itself, or `prior` when none does. */
  function LastRecorded(vs: seq<string>, prior: Option<string>): (r: Option<string>)
    ensures r == prior || (r.Some? && r.value in vs && RecordsItself(r.value))
  {
    if |vs| == 0 then prior
    else if RecordsItself(vs[|vs| - 1]) then Some(vs[|vs| - 1])
    else LastRecorded(vs[..|vs| - 1], prior)
  }

  lemma {:induction false} LastRecordedCons(v: string, vs: seq<string>, prior: Option<string>)
    ensures LastRecorded([v] + vs, prior) == LastRecorded(vs, if RecordsItself(v) then Some(v) else prior)
  {
    if |vs| > 0 {
      var u := [v] + vs;
      assert u[..|u| - 1] == [v] + vs[..|vs| - 1];
      LastRecordedCons(v, vs[..|vs| - 1], prior);
    } else {
      assert [v] + vs == [v];
      assert ([v] + vs)[..0] == [];
    }
  }

  datatype Walked = Walked(table: System, processed: seq<string>, stop: Option<Stop>)

  /** The files that went through without error: the processed ones, less a
      failing last one. */
  function Completed(w: Walked): seq<string> {
    if w.stop.Some? && |w.processed| > 0 then w.processed[..|w.processed| - 1] else w.processed
  }

  /** One file's step: the table before it and its version to the step's result. */
  type Stepper = (System, string) -> Step

  /** The step the walker takes for each file: `db_update_schema`. */
  function StepOf(s: Schema, package: string): Stepper {
    (t: System, v: string) => UpdateSchema(s, t, package, v)
  }

  /** The loop of lines 189-211: each file in turn until one fails. */
  function Walk(step: Stepper, t: System, vs: seq<string>): (w: Walked)
    decreases |vs|
    ensures |w.processed| <= |vs|
    ensures w.stop.None? ==> |w.processed| == |vs|
  {
    if |vs| == 0 then Walked(t, [], None)
    else
      match step(t, vs[0])
      case Failed(reason) => Walked(t, [vs[0]], Some(reason))
      case Applied(t') =>
        var rest := Walk(step, t', vs[1..]);
        Walked(rest.table, [vs[0]] + rest.processed, rest.stop)
  }

  /** What the walk went through: a prefix of the queue, all of it when nothing
      stopped it, and otherwise up to and including the file it stopped at. */
  lemma {:induction false} WalkShape(step: Stepper, t: System, vs: seq<string>)
    decreases |vs|
    ensures var w := Walk(step, t, vs);
            forall i :: 0 <= i < |w.processed| ==> w.processed[i] == vs[i]
    ensures var w := Walk(step, t, vs);
            w.stop.None? ==> w.processed == vs
    ensures var w := Walk(step, t, vs);
            w.stop.Some? ==> |w.processed| > 0
  {
    if |vs| > 0 {
      match step(t, vs[0])
      case Failed(_) =>
      case Applied(t') =>
        WalkShape(step, t', vs[1..]);
        var rest := Walk(step, t', vs[1..]);
        var w := Walk(step, t, vs);
        assert w.processed == [vs[0]] + rest.processed;
        assert forall i :: 1 <= i < |w.processed| ==> w.processed[i] == rest.processed[i - 1] && vs[i] == vs[1..][i - 1];
        if rest.stop.None? {
          assert vs == [vs[0]] + vs[1..];
        }
    }
  }

  /** A stop names the file it stopped at, the last one processed. */
  lemma {:induction false} WalkStopNamesFile(s: Schema, t: System, package: string, vs: seq<string>)
    decreases |vs|
    ensures var w := Walk(StepOf(s, package), t, vs);
            w.stop.Some? ==>
              |w.processed| > 0 &&
              w.stop.value in {ScriptError(w.processed[|w.processed| - 1]), RecordError(w.processed[|w.processed| - 1])}
  {
    if |vs| > 0 {
      match UpdateSchema(s, t, package, vs[0])
      case Failed(_) =>
      case Applied(t') =>
        WalkStopNamesFile(s, t', package, vs[1..]);
        var rest := Walk(StepOf(s, package), t', vs[1..]);
        var w := Walk(StepOf(s, package), t, vs);
        assert w.processed == [vs[0]] + rest.processed;
        if rest.stop.Some? {
          assert w.processed[|w.processed| - 1] == rest.processed[|rest.processed| - 1];
        }
    }
  }

  /** The walk never touches a row of another name. */
  lemma {:induction false} WalkKeepsOtherRows(s: Schema, t: System, package: string, vs: seq<string>, k: string)
    requires k != VersionKey(package)
    decreases |vs|
    ensures Lookup(Rows(Walk(StepOf(s, package), t, vs).table), k) == Lookup(Rows(t), k)
  {
    if |vs| > 0 {
      match UpdateSchema(s, t, package, vs[0])
      case Failed(_) =>
      case Applied(t') =>
        UpdateSchemaTable(s, t, package, vs[0]);
        WalkKeepsOtherRows(s, t', package, vs[1..], k);
    }
  }

  /** After the walk the component's version is the last recorded version among
      the files that went through, or what was stored before when none of them
      records itself. */
  lemma {:induction false} WalkRecordsLast(s: Schema, t: System, package: string, vs: seq<string>)
    decreases |vs|
    ensures var w := Walk(StepOf(s, package), t, vs);
            Lookup(Rows(w.table), VersionKey(package)) == LastRecorded(Completed(w), Lookup(Rows(t), VersionKey(package)))
  {
    if |vs| > 0 {
      match UpdateSchema(s, t, package, vs[0])
      case Failed(_) =>
      case Applied(t') =>
        var w := Walk(StepOf(s, package), t, vs);
        var rest := Walk(StepOf(s, package), t', vs[1..]);
        UpdateSchemaTable(s, t, package, vs[0]);
        WalkRecordsLast(s, t', package, vs[1..]);
        assert Completed(w) == [vs[0]] + Completed(rest);
        LastRecordedCons(vs[0], Completed(rest), Lookup(Rows(t), VersionKey(package)));
    }
  }

  /** Once the `system` table exists, the walk succeeds exactly when no script
      fails. */
  lemma {:induction false} WalkOnPresentTable(s: Schema, t: System, package: string, vs: seq<string>)
    requires t.Present?
    decreases |vs|
    ensures Walk(StepOf(s, package), t, vs).stop.None? <==> forall i :: 0 <= i < |vs| ==> !ScriptFails(s, vs[i])
  {
    if |vs| > 0 {
      match UpdateSchema(s, t, package, vs[0])
      case Failed(_) =>
      case Applied(t') =>
        WalkOnPresentTable(s, t', package, vs[1..]);
        assert forall i :: 1 <= i < |vs| ==> vs[i] == vs[1..][i - 1];
    }
  }

  /** On an existing `system` table a walk that stops, stops at the first
      failing script, every earlier one having gone through. */
  lemma {:induction false} WalkStopsAtFirstFailure(s: Schema, t: System, package: string, vs: seq<string>)
    requires t.Present?
    decreases |vs|
    ensures var w := Walk(StepOf(s, package), t, vs);
            w.stop.Some? ==>
              |w.processed| > 0 &&
              w.stop.value == ScriptError(w.processed[|w.processed| - 1]) &&
              ScriptFails(s, w.processed[|w.processed| - 1]) &&
              forall i :: 0 <= i < |w.processed| - 1 ==> !ScriptFails(s, w.processed[i])
  {
    if |vs| > 0 {
      match UpdateSchema(s, t, package, vs[0])
      case Failed(_) =>
      case Applied(t') =>
        WalkStopsAtFirstFailure(s, t', package, vs[1..]);
        var rest := Walk(StepOf(s, package), t', vs[1..]);
        var w := Walk(StepOf(s, package), t, vs);
        assert w.processed == [vs[0]] + rest.processed;
        assert forall i :: 1 <= i < |w.processed| ==> w.processed[i] == rest.processed[i - 1];
    }
  }

  /** One step of the walk: an applied first file, then the walk of the rest. */
  lemma WalkApplied(step: Stepper, t: System, vs: seq<string>, t': System)
    requires |vs| > 0 && step(t, vs[0]) == Applied(t')
    ensures var rest := Walk(step, t', vs[1..]);
            Walk(step, t, vs) == Walked(rest.table, [vs[0]] + rest.processed, rest.stop)
  {
  }

  /** A walk that stops within `a` never reaches `b`. */
  lemma {:induction false} WalkStopsEarly(step: Stepper, t: System, a: seq<string>, b: seq<string>)
    decreases |a|
    ensures Walk(step, t, a).stop.Some? ==> Walk(step, t, a + b) == Walk(step, t, a)
  {
    if |a| > 0 {
      var ab := a + b;
      assert ab[0] == a[0] && ab[1..] == a[1..] + b;
      match step(t, a[0])
      case Failed(_) =>
      case Applied(t') =>
        WalkStopsEarly(step, t', a[1..], b);
        WalkApplied(step, t, a, t');
        WalkApplied(step, t, ab, t');
    }
  }

  /** The walk is a left fold: when nothing in `a` fails, walking `a + b` is
      walking `a` and then walking `b` from the table `a` left behind. */
  lemma {:induction false} WalkComposes(step: Stepper, t: System, a: seq<string>, b: seq<string>)
    decreases |a|
    ensures Walk(step, t, a).stop.None? ==>
              var wb := Walk(step, Walk(step, t, a).table, b);
              Walk(step, t, a + b) == Walked(wb.table, a + wb.processed, wb.stop)
  {
    if |a| == 0 {
      assert a + b == b;
    } else {
      var ab := a + b;
      assert ab[0] == a[0] && ab[1..] == a[1..] + b;
      match step(t, a[0])
      case Failed(_) =>
      case Applied(t') =>
        WalkComposes(step, t', a[1..], b);
        WalkApplied(step, t, a, t');
        WalkApplied(step, t, ab, t');
        var wa := Walk(step, t', a[1..]);
        if wa.stop.None? {
          var wb := Walk(step, wa.table, b);
          assert [a[0]] + (a[1..] + wb.processed) == a + wb.processed;
        }
    }
  }

  // ---------------------------------------------------------------------------
  // db_update

  datatype Status = Upgraded | Stopped(reason: Stop, fatal: bool)

  /** The outcome of `db_update`: its boolean result is `status.Upgraded?`. */
  datatype Report = Report(status: Status, table: System, processed: seq<string>)

  /** The walk over an upgrade queue, as `db_update` reports it: the files it
      went through are the head of the queue, all of it on success. */
  function RunQueue(s: Schema, t: System, package: string, queue: seq<string>, raiseErrors: bool): (r: Report)
    ensures r.status.Stopped? ==> r.status.fatal == raiseErrors
    ensures |r.processed| <= |queue|
    ensures forall i :: 0 <= i < |r.processed| ==> r.processed[i] == queue[i]
    ensures r.status.Upgraded? ==> r.processed == queue
  {
    var w := Walk(StepOf(s, package), t, queue);
    WalkShape(StepOf(s, package), t, queue);
    Report(if w.stop.None? then Upgraded else Stopped(w.stop.value, raiseErrors), w.table, w.processed)
  }

  /** Run over the queue of files newer than `start`, only pending files are
      applied, in ascending order, and all of them on success. */
  lemma RunQueueOrder(s: Schema, t: System, package: string, start: nat, raiseErrors: bool)
    ensures var r := RunQueue(s, t, package, Queue(s.listing, start), raiseErrors);
            AllNumerals(r.processed) && Ascending(r.processed)
    ensures var r := RunQueue(s, t, package, Queue(s.listing, start), raiseErrors);
            forall i :: 0 <= i < |r.processed| ==> Pending(s.listing, start, r.processed[i])
    ensures var r := RunQueue(s, t, package, Queue(s.listing, start), raiseErrors);
            r.status.Upgraded? ==> forall v :: Pending(s.listing, start, v) ==> v in r.processed
  {
    var queue := Queue(s.listing, start);
    var r := RunQueue(s, t, package, queue, raiseErrors);
    assert r.processed == queue[..|r.processed|];
    AscendingPrefix(queue, |r.processed|);
    forall i | 0 <= i < |r.processed|
      ensures Pending(s.listing, start, r.processed[i])
    {
      assert r.processed[i] == queue[i] && queue[i] in queue;
    }
  }

  /** Other names are untouched, and on success the component's version is the
      last recorded one among the applied files. */
  lemma RunQueueTable(s: Schema, t: System, package: string, queue: seq<string>, raiseErrors: bool)
    ensures var r := RunQueue(s, t, package, queue, raiseErrors);
            forall k :: k != VersionKey(package) ==> Lookup(Rows(r.table), k) == Lookup(Rows(t), k)
    ensures var r := RunQueue(s, t, package, queue, raiseErrors);
            r.status.Upgraded? ==>
              Lookup(Rows(r.table), VersionKey(package)) == LastRecorded(r.processed, Lookup(Rows(t), VersionKey(package)))
  {
    var w := Walk(StepOf(s, package), t, queue);
    forall k | k != VersionKey(package)
      ensures Lookup(Rows(w.table), k) == Lookup(Rows(t), k)
    {
      WalkKeepsOtherRows(s, t, package, queue, k);
    }
    WalkRecordsLast(s, t, package, queue);
    assert w.stop.None? ==> Completed(w) == w.processed;
  }

  /** `db_update($dir, $package, $ver, ['errors' => raiseErrors])`. */
  function DbUpdate(s: Schema, t: System, package: string, release: Option<string>, raiseErrors: bool): (r: Report)
    ensures !s.hasSchemaDir ==> r == Report(Stopped(NoSchemaDir, raiseErrors), t, [])
    ensures s.hasSchemaDir && !s.hasDialectDir ==> r == Report(Stopped(NoDialectDir, raiseErrors), t, [])
    ensures r.status.Stopped? ==> r.status.fatal == raiseErrors
    ensures AllNumerals(r.processed) && Ascending(r.processed)
    ensures forall i :: 0 <= i < |r.processed| ==>
              Pending(s.listing, StartVersion(t, package, release), r.processed[i])
    ensures r.status.Upgraded? ==>
              forall v :: Pending(s.listing, StartVersion(t, package, release), v) ==> v in r.processed
    ensures forall k :: k != VersionKey(package) ==> Lookup(Rows(r.table), k) == Lookup(Rows(t), k)
    ensures r.status.Upgraded? ==>
              Lookup(Rows(r.table), VersionKey(package)) == LastRecorded(r.processed, Lookup(Rows(t), VersionKey(package)))
  {
    if !s.hasSchemaDir then Report(Stopped(NoSchemaDir, raiseErrors), t, [])
    else
      var start := StartVersion(t, package, release);
      if !s.hasDialectDir then Report(Stopped(NoDialectDir, raiseErrors), t, [])
      else
        RunQueueOrder(s, t, package, start, raiseErrors);
        RunQueueTable(s, t, package, Queue(s.listing, start), raiseErrors);
        RunQueue(s, t, package, Queue(s.listing, start), raiseErrors)
  }

  /** With distinct, canonically numbered upgrade files (always the case in a
      directory without leading-zero names) no version is applied twice and
      they go in strictly ascending order. */
  lemma DbUpdateStrictlyAscending(s: Schema, t: System, package: string, release: Option<string>, raiseErrors: bool)
    requires Distinct(s.listing) && CanonicalNames(s.listing)
    ensures AllNumerals(DbUpdate(s, t, package, release, raiseErrors).processed)
    ensures StrictlyAscending(DbUpdate(s, t, package, release, raiseErrors).processed)
  {
    if s.hasSchemaDir && s.hasDialectDir {
      var start := StartVersion(t, package, release);
      var queue := Queue(s.listing, start);
      var p := DbUpdate(s, t, package, release, raiseErrors).processed;
      QueueStrictlyAscending(s.listing, start);
      assert p == queue[..|p|];
      forall i, j | 0 <= i < j < |p|
        ensures Value(p[i]) < Value(p[j])
      {
        assert p[i] == queue[i] && p[j] == queue[j];
      }
    }
  }

  /** On an existing `system` table the walk over the queue reports success
      exactly when no pending upgrade script fails. */
  lemma RunQueueOnPresentTable(s: Schema, t: System, package: string, start: nat, raiseErrors: bool)
    requires t.Present?
    ensures RunQueue(s, t, package, Queue(s.listing, start), raiseErrors).status.Upgraded?
            <==> forall v :: Pending(s.listing, start, v) ==> !ScriptFails(s, v)
  {
    var queue := Queue(s.listing, start);
    WalkOnPresentTable(s, t, package, queue);
    if forall i :: 0 <= i < |queue| ==> !ScriptFails(s, queue[i]) {
      forall v | Pending(s.listing, start, v)
        ensures !ScriptFails(s, v)
      {
        assert v in queue;
      }
    } else {
      var i :| 0 <= i < |queue| && ScriptFails(s, queue[i]);
      assert queue[i] in queue;
    }
  }

  /** With both directories present and the `system` table in place,
      `db_update` returns true exactly when no pending upgrade script fails,
      including when there is nothing to apply. */
  lemma DbUpdateOnPresentTable(s: Schema, t: System, package: string, release: Option<string>, raiseErrors: bool)
    requires s.hasSchemaDir && s.hasDialectDir && t.Present?
    ensures DbUpdate(s, t, package, release, raiseErrors).status.Upgraded?
            <==> forall v :: Pending(s.listing, StartVersion(t, package, release), v) ==> !ScriptFails(s, v)
  {
    RunQueueOnPresentTable(s, t, package, StartVersion(t, package, release), raiseErrors);
  }

  /** `db_update` with the directory loop of line 182 as written: the same
      walk over only the entries before the first one named `0`. It differs
      from `DbUpdate` only on a listing with such an entry. */
  function DbUpdateAsWritten(s: Schema, t: System, package: string, release: Option<string>, raiseErrors: bool): (r: Report)
    ensures (forall i :: 0 <= i < |s.listing| ==> !Falsy(s.listing[i])) ==>
              r == DbUpdate(s, t, package, release, raiseErrors)
    ensures forall i :: 0 <= i < |r.processed| ==>
              Pending(ScannedAsWritten(s.listing), StartVersion(t, package, release), r.processed[i])
  {
    ScannedAsWrittenWhole(s.listing);
    DbUpdate(s.(listing := ScannedAsWritten(s.listing)), t, package, release, raiseErrors)
  }

  /** A dialect directory listing a file named `0` before `2.sql`, whose script
      fails when run. */
  function ZeroFirstSchema(): Schema {
    Schema(true, true, ["0", "2.sql"], map["2.sql" := "x"], _ => ScriptFailed)
  }

  /** Release 0.1-stable with an existing, empty `system` table starts at 1. */
  lemma ZeroFirstStart()
    ensures StartVersion(Present([]), "roundcube", Some("0.1-stable")) == 1
  {
    assert Count(Rows(Present([])), VersionKey("roundcube")) == 0;
    KnownReleaseUsed(Present([]), "roundcube", "0.1-stable");
  }

  /** As written, the loop ends at `0` and nothing is pending. */
  lemma ZeroFirstAsWritten()
    ensures DbUpdateAsWritten(ZeroFirstSchema(), Present([]), "roundcube", Some("0.1-stable"), false).status.Upgraded?
  {
    var s := ZeroFirstSchema();
    assert ScannedAsWritten(s.listing) == [];
    DbUpdateOnPresentTable(s.(listing := []), Present([]), "roundcube", Some("0.1-stable"), false);
  }

  /** Over the whole listing, the queue is `2`. */
  lemma ZeroFirstQueue()
    ensures Queue(ZeroFirstSchema().listing, 1) == ["2"]
  {
    var listing := ZeroFirstSchema().listing;
    assert Value("2") == 2 by { assert "2"[..0] == ""; }
    UpgradeNumberOf("2");
    assert "2" + ".sql" == "2.sql";
    assert UpgradeNumber("0").None?;
    assert listing[1..] == ["2.sql"] && listing[1..][1..] == [];
    assert Select(listing[1..][1..], 1) == [];
    assert Select(listing[1..], 1) == ["2"] + [];
    assert Select(listing, 1) == ["2"];
    SortSingle("2");
  }

  /** Over the whole listing, `2.sql` is pending and its script fails first. */
  lemma ZeroFirstCorrected()
    ensures DbUpdate(ZeroFirstSchema(), Present([]), "roundcube", Some("0.1-stable"), false)
            == Report(Stopped(ScriptError("2"), false), Present([]), ["2"])
  {
    var s := ZeroFirstSchema();
    var t := Present([]);
    ZeroFirstStart();
    ZeroFirstQueue();
    assert ScriptFails(s, "2");
    assert Walk(StepOf(s, "roundcube"), t, ["2"]) == Walked(t, ["2"], Some(ScriptError("2")));
  }

  /** On that directory, for a component at release 0.1-stable with an
      existing `system` table, `db_update` as written returns true without
      running `2.sql`; over the whole listing it stops at the failing `2.sql`. */
  lemma ZeroEntryEndsScan()
    ensures DbUpdateAsWritten(ZeroFirstSchema(), Present([]), "roundcube", Some("0.1-stable"), false).status.Upgraded?
    ensures DbUpdate(ZeroFirstSchema(), Present([]), "roundcube", Some("0.1-stable"), false)
            == Report(Stopped(ScriptError("2"), false), Present([]), ["2"])
  {
    ZeroFirstAsWritten();
    ZeroFirstCorrected();
  }
}

=== FILE: system_table.dfy ===
/**
 * The `system` table, which records one schema version per component under
 * the name `<package>-version`, with the two operations the upgrade walker
 * performs on it: reading a version (`db_version`) and recording one by an
 * UPDATE followed, when no row matched, by an INSERT (`db_update_schema`).
 *
 * The table is a sequence of rows rather than a map, so that "never a second
 * row for the key" is something to prove and not something assumed.
 */
module SystemTable {
  import opened Wrappers
  import opened Decimal
  import opened PhpString

  datatype Row = Row(name: string, value: string)

  /** The table may not exist yet: it is created by an upgrade script. */
  datatype System = Missing | Present(rows: seq<Row>)

  function Rows(t: System): seq<Row> {
    if t.Missing? then [] else t.rows
  }

  /** The name under which a component's schema version is stored. */
  function VersionKey(package: string): string {
    package + "-version"
  }

  /** Number of rows named `key`. */
  function Count(rows: seq<Row>, key: string): nat {
    if |rows| == 0 then 0 else (if rows[0].name == key then 1 else 0) + Count(rows[1..], key)
  }

  /** The value of the first row named `key`, as `fetch_array` returns it. */
  function Lookup(rows: seq<Row>, key: string): (r: Option<string>)
    ensures r.None? <==> Count(rows, key) == 0
    ensures r.Some? ==> Row(key, r.value) in rows
  {
    if |rows| == 0 then None
    else if rows[0].name == key then Some(rows[0].value)
    else Lookup(rows[1..], key)
  }

  /** The table seen as a map from name to value: the first row of each name wins. */
  function AsMap(rows: seq<Row>): (m: map<string, string>)
    ensures forall k :: k in m <==> Lookup(rows, k).Some?
    ensures forall k :: k in m ==> m[k] == Lookup(rows, k).value
  {
    if |rows| == 0 then map[] else AsMap(rows[1..])[rows[0].name := rows[0].value]
  }

  /** `db_version`: no row gives null; otherwise the stored value with every
      non-digit character removed. A missing table reads as no row. */
  function DbVersion(t: System, package: string): (r: Option<string>)
    ensures r.None? <==> Count(Rows(t), VersionKey(package)) == 0
    ensures r.Some? ==> IsDigits(r.value)
    ensures r.Some? ==> r.value == StripNonDigits(Lookup(Rows(t), VersionKey(package)).value)
  {
    match Lookup(Rows(t), VersionKey(package))
    case None => None
    case Some(stored) => Some(StripNonDigits(stored))
  }

  /** `UPDATE system SET value = ? WHERE name = ?` on the rows of an existing table. */
  function Update(rows: seq<Row>, key: string, value: string): (r: seq<Row>)
    ensures |r| == |rows|
  {
    if |rows| == 0 then []
    else [if rows[0].name == key then Row(key, value) else rows[0]] + Update(rows[1..], key, value)
  }

  /** The UPDATE keeps every row in place, sets the value of the rows named
      `key` and leaves the others as they were. */
  lemma {:induction false} UpdateRows(rows: seq<Row>, key: string, value: string)
    ensures forall i :: 0 <= i < |rows| ==> Update(rows, key, value)[i].name == rows[i].name
    ensures forall i :: 0 <= i < |rows| && rows[i].name != key ==> Update(rows, key, value)[i] == rows[i]
    ensures forall i :: 0 <= i < |rows| && rows[i].name == key ==> Update(rows, key, value)[i].value == value
  {
    if |rows| > 0 {
      var r := Update(rows, key, value);
      UpdateRows(rows[1..], key, value);
      assert forall i :: 1 <= i < |rows| ==> r[i] == Update(rows[1..], key, value)[i - 1] && rows[i] == rows[1..][i - 1];
    }
  }

  /** UPDATE changes values only, so every name keeps its number of rows. */
  lemma {:induction false} UpdateCount(rows: seq<Row>, key: string, value: string, k: string)
    ensures Count(Update(rows, key, value), k) == Count(rows, k)
  {
    if |rows| > 0 {
      UpdateCount(rows[1..], key, value, k);
      assert Update(rows, key, value)[1..] == Update(rows[1..], key, value);
    }
  }

  /** After the UPDATE, the first row of `key` (if any) holds the new value and
      every other name reads as before. */
  lemma {:induction false} UpdateLookup(rows: seq<Row>, key: string, value: string, k: string)
    ensures Lookup(Update(rows, key, value), k)
         == if k == key && Count(rows, key) > 0 then Some(value) else Lookup(rows, k)
  {
    if |rows| > 0 {
      UpdateLookup(rows[1..], key, value, k);
      assert Update(rows, key, value)[1..] == Update(rows[1..], key, value);
    }
  }

  lemma {:induction false} AppendCount(rows: seq<Row>, row: Row, k: string)
    ensures Count(rows + [row], k) == Count(rows, k) + (if row.name == k then 1 else 0)
  {
    if |rows| > 0 {
      assert (rows + [row])[1..] == rows[1..] + [row];
      AppendCount(rows[1..], row, k);
    } else {
      assert [] + [row] == [row];
    }
  }

  lemma {:induction false} AppendLookup(rows: seq<Row>, row: Row, k: string)
    ensures Lookup(rows + [row], k)
         == if Count(rows, k) == 0 && row.name == k then Some(row.value) else Lookup(rows, k)
  {
    if |rows| > 0 {
      assert (rows + [row])[1..] == rows[1..] + [row];
      AppendLookup(rows[1..], row, k);
    } else {
      assert [] + [row] == [row];
    }
  }

  /** Outcome of recording a version: the new table, or the database error. */
  datatype Write = Written(table: System) | WriteFailed

  /** The UPDATE, then the INSERT when it raised no error and matched no row.
      Affected rows are counted as matched rows, so re-writing an unchanged
      value does not lead to a second INSERT. On a missing table the UPDATE
      raises an error and nothing is inserted. */
  function SetVersion(t: System, package: string, version: string): (w: Write)
    ensures t.Missing? <==> w.WriteFailed?
    ensures w.Written? ==> w.table.Present?
    ensures w.Written? ==> Lookup(Rows(w.table), VersionKey(package)) == Some(version)
    ensures w.Written? ==> Count(Rows(w.table), VersionKey(package))
                           == if Count(Rows(t), VersionKey(package)) == 0 then 1 else Count(Rows(t), VersionKey(package))
  {
    match t
    case Missing => WriteFailed
    case Present(rows) =>
      var key := VersionKey(package);
      var updated := Update(rows, key, version);
      var affected := Count(rows, key);
      UpdateLookup(rows, key, version, key);
      UpdateCount(rows, key, version, key);
      if affected == 0 then
        AppendLookup(updated, Row(key, version), key);
        AppendCount(updated, Row(key, version), key);
        Written(Present(updated + [Row(key, version)]))
      else
        Written(Present(updated))
  }

  /** Recording a version leaves every other name as it was: same value read,
      same number of rows. */
  lemma SetVersionOthers(t: System, package: string, version: string, k: string)
    requires SetVersion(t, package, version).Written? && k != VersionKey(package)
    ensures Lookup(Rows(SetVersion(t, package, version).table), k) == Lookup(Rows(t), k)
    ensures Count(Rows(SetVersion(t, package, version).table), k) == Count(Rows(t), k)
  {
    var key := VersionKey(package);
    var rows := Rows(t);
    var updated := Update(rows, key, version);
    UpdateLookup(rows, key, version, k);
    UpdateCount(rows, key, version, k);
    if Count(rows, key) == 0 {
      AppendLookup(updated, Row(key, version), k);
      AppendCount(updated, Row(key, version), k);
    }
  }

  /** Recording a version into a table with at most one row for the key leaves
      exactly one row for it. */
  lemma SetVersionSingleRow(t: System, package: string, version: string)
    requires Count(Rows(t), VersionKey(package)) <= 1
    ensures SetVersion(t, package, version).Written? ==>
              Count(Rows(SetVersion(t, package, version).table), VersionKey(package)) == 1
  {
  }

  /** Recording the same version twice is the same as recording it once. */
  lemma SetVersionIdempotent(t: System, package: string, version: string)
    requires SetVersion(t, package, version).Written?
    ensures SetVersion(SetVersion(t, package, version).table, package, version)
            == SetVersion(t, package, version)
  {
    var key := VersionKey(package);
    var before := Rows(t);
    var rows := Rows(SetVersion(t, package, version).table);
    assert Count(rows, key) > 0;
    UpdateRows(before, key, version);
    assert forall i :: 0 <= i < |rows| && rows[i].name == key ==> rows[i].value == version by {
      forall i | 0 <= i < |rows| && rows[i].name == key
        ensures rows[i].value == version
      {
        if i < |before| {
          assert rows[i] == Update(before, key, version)[i];
        }
      }
    }
    UpdateRows(rows, key, version);
    assert Update(rows, key, version) == rows;
  }

  /** In the map view, recording a version is a single map update. */
  lemma SetVersionAsMap(t: System, package: string, version: string)
    requires SetVersion(t, package, version).Written?
    ensures AsMap(Rows(SetVersion(t, package, version).table)) == AsMap(Rows(t))[VersionKey(package) := version]
  {
    var after := AsMap(Rows(SetVersion(t, package, version).table));
    var expected := AsMap(Rows(t))[VersionKey(package) := version];
    forall k
      ensures (k in after <==> k in expected) && (k in after ==> after[k] == expected[k])
    {
      if k != VersionKey(package) {
        SetVersionOthers(t, package, version, k);
      }
    }
    assert after == expected;
  }

  /** A recorded version reads back unchanged through `db_version`. */
  lemma SetThenRead(t: System, package: string, version: string)
    requires IsDigits(version)
    requires SetVersion(t, package, version).Written?
    ensures DbVersion(SetVersion(t, package, version).table, package) == Some(version)
  {
  }
}

=== FILE: wrappers.dfy ===
/** The optional value used wherever PHP returns `null` or `false` for "nothing". */
module Wrappers {

  datatype Option<+T> = None | Some(value: T)
}
